=== FILE: README.md ===
# Breast-cancer classifier services, modelled in Dafny

This project models the deterministic core of a small machine-learning project. A
scikit-learn classifier trained on the Wisconsin breast-cancer data set is served by
two Flask services and a Streamlit dashboard, and a script packages the project as a
zip archive. The Dafny model covers:

- **the name-keyed service** (`api/api.py`, module `Api`). `POST /predict` takes a
  JSON object from canonical feature names to values. The body must be truthy, then
  an object, then free of unknown keys. The row is then reindexed to the canonical
  column order, with 0 for missing columns, and handed to the classifier. Every
  exception becomes one generic 400. `POST /predict/batch` reindexes every row of an
  uploaded CSV the same way. `GET /model/info` hands out the stored names.
- **the array-keyed service** (`app.py`, module `ArrayApi`). `POST /predict` takes
  `{"features": [...]}`, checks only that the body is truthy and holds the key, and
  names the class through its `CLASSES` table. Every exception becomes a 500 that
  carries the exception's text.
- **the dashboard helpers** (`frontend/frontend.py`, module `Frontend`). These are:
  - the normalised service address and the image addresses;
  - the display name of a feature: its Spanish translation, or a fallback built with
    `replace` and `title`;
  - the three-column feature table, padded with blank cells by a `while` loop;
  - the benign/malignant verdict drawn from a prediction.
- **the translation table** (`utils/feature_names.py`, module `FeatureNames`). It
  holds thirty Spanish labels in three blocks of ten: mean, standard error, worst.
- **the packaging script** (`package_project.py`, module `Packaging`). It walks the
  project directory top-down and prunes directories by name. It skips files by name
  and writes every other file into the archive under its relative path.

Support modules:

- `Common` holds the decoded JSON value, the request and classifier outcomes, and
  Python truthiness.
- `PyStr` holds the Python `str` operations the dashboard calls (`in`, `endswith`,
  `replace`, `title` and `rstrip`), and a `startswith` predicate used only to state
  properties.

The classifier is a function parameter: `seq<Json> -> Inference` for the name-keyed
service and `Json -> Inference` for the array-keyed one. An `Inference` either
raises with a message or yields an integer class and probabilities. A request body
the framework cannot decode is `Request.Unparsable`, which both handlers' `except`
clauses catch.

Where the code and its description differ, the model follows the code:

- In `api/api.py` an empty object `{}` is falsy, so it is refused as "no data" at
  lines 93-95. The "no recognized features" branch at lines 110-111 can never be
  reached (`Api.NoRecognizedFeaturesUnreachable`).
- The dashboard shows class 0 as benign (`frontend/frontend.py:337`), while
  `app.py:65` names class 0 "malignant". The model keeps both tables as written
  (`Frontend.VerdictContradictsClassTable`).

## Model

| member | source | states |
|---|---|---|
| Common.ObjectTruthyIffNonEmpty | api/api.py:93-95 | a JSON object is falsy exactly when it has no keys |
| Common.Truthy | api/api.py:93-95 | Python's truth value of a decoded JSON value: null, false, 0, "", [] and {} are falsy, everything else truthy (definition) |
| Api.Reindex | api/api.py:114-115 | the row has one cell per canonical name, in canonical order: the sent value when the name was sent, the fill value otherwise |
| Api.ValidFeatures | api/api.py:101 | `set(feature_info["feature_names"])`: the canonical names as a set (definition) |
| Api.Columns | api/api.py:114-115 | reading a row back by column gives a map over exactly the canonical names |
| Api.ReindexRoundTrip | api/api.py:114-115 | reading the reindexed row back returns every sent canonical value unchanged and 0 for every canonical name not sent |
| Api.ReindexDropsExtra | api/api.py:114-115 | keys outside the canonical names do not affect the row |
| Api.Predict | api/api.py:90-129 | an invalid-features response lists a non-empty set disjoint from the canonical names; a prediction echoes exactly the parsed object |
| Api.SuccessBody | api/api.py:122-126 | the success body has exactly the keys "input", "prediction" and "probability": the object sent, the class as a number, and the probabilities in order |
| Api.NotSubsetLeavesDifference | api/api.py:104-107 | a set that is not a subset leaves a non-empty difference, so the invalid list is never empty |
| Api.Status | api/api.py:95-129 | 200 exactly for a prediction, 400 for every refusal and failure |
| Api.ErrorMessage | api/api.py:95-129 | an error text exactly when there is no prediction, and each refusal and failure gets its own fixed Spanish text |
| Api.FalsyBodyIsNoData | api/api.py:93-95 | null, false, 0, "", [] and {} are answered "no data" with 400, before any other check |
| Api.NoRecognizedFeaturesUnreachable | api/api.py:110-111 | no request ever gets the "no recognized features" response |
| Api.NonObjectRefused | api/api.py:98-99 | a truthy body that is not an object gets the format error |
| Api.InvalidFeaturesExact | api/api.py:101-108 | a non-empty object is refused for invalid features if and only if it has a non-canonical key, and the refusal lists exactly those keys |
| Api.FooBarRefused | tests/test_api.py:69-74 | `{"foo": "bar"}` gets 400, an error text, and `invalid_features == {"foo"}` |
| Api.AcceptedBodyIsClassified | api/api.py:113-129 | a non-empty object over canonical names reaches the classifier with the reindexed row; the answer is the classifier's class with the input echoed, or the generic failure when it raises |
| Api.FailureHidesCause | api/api.py:127-129 | two classifiers that raise on the same rows and agree wherever they answer give identical responses, whatever their messages, so no exception text reaches the client |
| Api.MeanOnlyBodyAccepted | tests/test_api.py:23-34 | the ten "mean" features alone pass every check and get 200 |
| Api.ModelInfoFeaturesAccepted | api/api.py:76-82 | a body filling in every name `/model/info` lists is accepted and echoed |
| Api.ModelInfo | api/api.py:76-82 | `/model/info` hands out the stored feature list, in stored order, whose names are exactly those `/predict` accepts, and the stored class names and metrics unchanged |
| Api.ReindexFrame | api/api.py:140 | the batch frame has one row per uploaded row, each reindexed like a single sample |
| Api.ClassifyFrame | api/api.py:142-143 | the frame fails exactly when some row fails; otherwise one class and one probability vector per row, in row order |
| Api.PredictBatch | api/api.py:131-151 | "missing file" exactly when the upload has no file part |
| Api.BatchStatus | api/api.py:135-151 | 200 exactly for a successful batch, 400 for every refusal and failure |
| Api.BatchErrorMessage | api/api.py:135-151 | an error text exactly when the batch fails: the missing-file text, or the CSV text for every other failure |
| Api.BatchRefusals | api/api.py:134-151 | no file part gets 400 and the missing-file text; an unreadable or empty file gets 400 and the CSV text |
| Api.BatchOnePerRow | api/api.py:142-148 | a successful batch answers each uploaded row, in order, with the classifier's answer on its reindexed row |
| Api.BatchSucceedsIff | api/api.py:136-151 | a CSV batch succeeds exactly when it has rows and the classifier answers every one of them |
| Api.BatchIgnoresExtraColumns | api/api.py:140 | extra uploaded columns do not change the response |
| Api.BatchOfOneAgreesWithSingle | api/api.py:114-126 | a one-row batch gets the class the single-sample endpoint gives the same sample |
| ArrayApi.ClassName | app.py:65 | "malignant" exactly for class 0, "benign" exactly for class 1, "unknown" for every other class |
| ArrayApi.FeaturesIn | app.py:101 | the `in` test raises exactly on a number, a boolean or null; on other values it tests keys, elements or substrings |
| ArrayApi.PredictArray | app.py:98-121 | a classification only comes from an object holding the key "features" |
| ArrayApi.Status | app.py:102-121 | 200 exactly for a classification, 400 exactly for missing data, 500 exactly for an exception |
| ArrayApi.ErrorText | app.py:101-121 | the fixed warning for a 400; the exception's own text for a 500 raised while decoding or classifying |
| ArrayApi.MissingFeaturesRefused | app.py:101-102 | a falsy body, or an object without "features", gets 400 "no valid data" |
| ArrayApi.FooBarRefused | test_api.py:70-77 | `{"foo": "bar"}` gets 400 |
| ArrayApi.NoLengthCheck | app.py:105-117 | whatever value is sent under "features", the response is the classifier's class and its name from the class table |
| ArrayApi.ExceptionTextLeaks | app.py:119-121 | a raising classifier gives 500 with the exception's text |
| ArrayApi.ScalarBodies | app.py:100-121 | zero and false get 400; any other number and true get 500, because the `in` test raises |
| ArrayApi.ListNamingFeaturesFails | app.py:100-121 | a list holding the string "features" passes the check and then fails on the subscript |
| ArrayApi.FailureHandlingDiffers | app.py:119-121 | when each service's classifier raises on the body it was sent, the name-keyed service answers 400 with a fixed text and this one answers 500 with the exception's text |
| PyStr.ReplaceAbsent | frontend/frontend.py:138 | `replace` returns the string unchanged when the pattern does not occur |
| PyStr.Replace | frontend/frontend.py:138 | `s.replace(pat, repl)`: a left-to-right scan without overlaps for a non-empty pattern, an insertion before every character and at the end for an empty one (definition; its properties are the rows that follow) |
| PyStr.ReplaceFromNext | frontend/frontend.py:138 | up to the next occurrence the scan copies; there it writes the replacement and resumes after the occurrence |
| PyStr.ReplaceFirst | frontend/frontend.py:138 | the first occurrence is replaced, and the rest is scanned after it |
| PyStr.ReplaceCharPointwise | frontend/frontend.py:138 | replacing one character by one character keeps the length and maps each position independently |
| PyStr.InsertEverywhere | frontend/frontend.py:138 | with an empty pattern, the result's length is that of the string plus `n + 1` copies of the replacement (the placement is stated by the definition only) |
| PyStr.TitlePointwise | frontend/frontend.py:138 | each character of `title()` depends only on itself and whether the previous character is a letter |
| PyStr.TitleCharKeepsOthers | frontend/frontend.py:138 | title-casing turns letters into letters and leaves every other character as it is |
| PyStr.Title | frontend/frontend.py:138 | `s.title()` keeps the length (the casing of each character is stated by PyStr.TitlePointwise) |
| PyStr.RStrip | frontend/frontend.py:36 | the result is the longest prefix that does not end in the stripped character; only that character is removed |
| PyStr.RStripIdempotent | frontend/frontend.py:36 | stripping twice strips nothing more |
| PyStr.Contains | frontend/frontend.py:126 | Python's substring `in`: the pattern occurs at some index (definition) |
| PyStr.EndsWith | frontend/frontend.py:126 | Python's `endswith`: the last characters are the suffix (definition) |
| Frontend.ApiUrlNormalised | frontend/frontend.py:36 | the service address never ends in '/', and it is the configured value, or `http://localhost:5000` when nothing is set, with trailing slashes removed |
| Frontend.ApiUrlIgnoresTrailingSlashes | frontend/frontend.py:36 | any number of trailing slashes in the configured value gives the same address |
| Frontend.ApiUrl | frontend/frontend.py:36 | the service address never ends in '/' |
| Frontend.VizUrlShape | frontend/frontend.py:121-129 | the image address always ends in "/visualizations/" followed by the name; it starts with the local address for names mentioning "visualizations" or ending in ".png", and with the service address otherwise |
| Frontend.VizUrl | frontend/frontend.py:121-129 | `viz_url`: the local base for image names, the service address otherwise, then "/visualizations/" and the name (definition; stated by VizUrlShape) |
| Frontend.ThemedVizIsLocal | frontend/frontend.py:132-134 | a themed image is always fetched locally as `<name>_dark.png` or `<name>_light.png` |
| Frontend.ThemedViz | frontend/frontend.py:132-134 | the themed address ends in "_dark.png" in dark mode and in "_light.png" otherwise |
| Frontend.DisplayNameChoice | frontend/frontend.py:137-138 | a translated feature shows its translation; any other shows the fallback |
| Frontend.FeatureDisplayName | frontend/frontend.py:137-138 | `FEATURE_TRANSLATIONS.get(f, fallback)` (definition; stated by DisplayNameChoice) |
| Frontend.Fallback | frontend/frontend.py:138 | the fallback label: every "mean " removed, every '_' made a space, then title-cased (definition; stated by the Fallback lemmas) |
| Frontend.Translations | frontend/frontend.py:30-33 | the translation table when `utils.feature_names` can be imported, the empty map otherwise (definition) |
| Frontend.TranslatedNamesFollowBlocks | frontend/frontend.py:137-138 | with the table imported, the mean, error and worst labels of a measurement end in " promedio", start with "Error en " and end in " peor caso" |
| Frontend.CanonicalLabelsDistinct | frontend/frontend.py:315-316 | with the table imported, two canonical features never share a slider label |
| Frontend.FallbackHasNoUnderscore | frontend/frontend.py:138 | the fallback holds no underscore and is as long as the name with "mean " removed |
| Frontend.FallbackDropsFirstMean | frontend/frontend.py:138 | "mean " is removed wherever it first occurs, not only at the front |
| Frontend.FallbackWithoutMean | frontend/frontend.py:138 | a name without "mean " only has its underscores made spaces before title-casing |
| Frontend.DisplayNames | frontend/frontend.py:141 | one display name per feature, in order |
| Frontend.PadCount | frontend/frontend.py:142-143 | at most two blanks, and exactly enough to reach a multiple of three |
| Frontend.ToTable3x10 | frontend/frontend.py:140-146 | the three columns, read one after another, are the display names followed by the blanks; the columns have equal length, a third of the padded list |
| Frontend.PadBound | frontend/frontend.py:142-143 | the loop stops at the first multiple of three and not before |
| Frontend.PaddingIsSmall | frontend/frontend.py:142-143 | no blank is added to a list whose length is already a multiple of three, and never more than two |
| Frontend.ThirtyFeaturesTenRows | frontend/frontend.py:140-146 | the thirty canonical features fill ten rows with no blank cell |
| Frontend.VerdictOfApiClass | frontend/frontend.py:333-342 | a prediction of the name-keyed service is shown as benign exactly when the class is 0; every body without "prediction" is shown as benign |
| Frontend.VerdictContradictsClassTable | frontend/frontend.py:337-342 | for classes 0 and 1 the dashboard says benign exactly where the class table of app.py says "malignant" |
| Frontend.VerdictOf | frontend/frontend.py:333-342 | `result.get("prediction", 0) == 0` decides benign, with `false` equal to 0 (definition; stated by VerdictOfApiClass) |
| Frontend.EqualsZero | frontend/frontend.py:337 | Python's `pred == 0` on a decoded JSON value: true for the number 0 and for `false` (definition) |
| FeatureNames.DictOf | utils/feature_names.py:12-48 | the dictionary's keys are exactly the keys written in the display |
| FeatureNames.DictOfLookup | utils/feature_names.py:12-48 | with no key written twice, each written entry is found under its key |
| FeatureNames.DictOfSize | utils/feature_names.py:12-48 | with no key written twice, the dictionary has one key per written entry |
| FeatureNames.DictOfInjective | utils/feature_names.py:12-48 | with no key and no value written twice, the dictionary is one-to-one |
| FeatureNames.MeanKeysInOrder | utils/feature_names.py:14-23 | the first block's keys are "mean " followed by each measurement, in order |
| FeatureNames.ErrorKeysInOrder | utils/feature_names.py:26-35 | the second block's keys are each measurement followed by " error", in order |
| FeatureNames.WorstKeysInOrder | utils/feature_names.py:38-47 | the third block's keys are "worst " followed by each measurement, in order |
| FeatureNames.MeanValuesPattern | utils/feature_names.py:14-23 | every mean label ends in " promedio" |
| FeatureNames.ErrorValuesPattern | utils/feature_names.py:26-35 | every standard-error label starts with "Error en " |
| FeatureNames.WorstValuesPattern | utils/feature_names.py:38-47 | every worst label ends in " peor caso" |
| FeatureNames.TranslationKeysInOrder | utils/feature_names.py:12-48 | the table lists the mean, the error and the worst keys of the ten measurements, block after block |
| FeatureNames.TranslationKeysDistinct | utils/feature_names.py:12-48 | no key is written twice |
| FeatureNames.TranslationCount | utils/feature_names.py:12-48 | the table has exactly thirty keys |
| FeatureNames.KeysAreThreeGroupsOfTen | utils/feature_names.py:12-48 | the keys are exactly the three statistics of the ten measurements |
| FeatureNames.TranslationsInjective | utils/feature_names.py:12-48 | no two features share a label |
| FeatureNames.TranslationPatterns | utils/feature_names.py:12-48 | for each measurement, its three keys are present, with labels ending in " promedio", starting with "Error en " and ending in " peor caso" |
| FeatureNames.BlockLookup | utils/feature_names.py:12-48 | in a display written as three equal blocks with no key twice, each block's entry is found under its key |
| Packaging.Empaquetar | package_project.py:12-35 | the archive holds exactly the walk's selection, in top-down walk order |
| Packaging.Excluded | package_project.py:13-23 | `excluir`: the eight fixed names followed by the archive's own name (definition) |
| Packaging.Walk | package_project.py:13-35 | the selection in `os.walk` top-down order: a directory's kept files, then the walk of each kept subdirectory (definition; stated by WalkIff and WalkDistinct) |
| Packaging.Pruned | package_project.py:13-28 | a directory is pruned exactly when its whole name is in the exclusion list (definition) |
| Packaging.Skipped | package_project.py:13-32 | a file is skipped when its whole name is in the exclusion list or is the archive's (definition; SkipRuleIsPruneRule shows the second test is redundant) |
| Packaging.WriteFiles | package_project.py:30-35 | the files of one directory that are not skipped are appended, in listing order |
| Packaging.ZipArchive.Write | package_project.py:35 | one entry is appended to the archive |
| Packaging.WalkStep | package_project.py:26-35 | handling the top directory of the walk keeps the written entries plus the pending walk equal to the whole selection |
| Packaging.PendingPushed | package_project.py:26-28 | pushing the kept subdirectories puts their walks, in listing order, ahead of what was pending |
| Packaging.SkipRuleIsPruneRule | package_project.py:13-32 | the `file == nombre_zip` test adds nothing: files and directories are judged by the same list, which holds the archive's name |
| Packaging.FilesOfIff | package_project.py:30-35 | a path is written for a directory's own files exactly when it names one of its files that is not skipped |
| Packaging.WalkDirsIff | package_project.py:26-28 | below a directory, a path is written exactly when it comes from the walk of a subdirectory that is not pruned |
| Packaging.WalkIff | package_project.py:26-35 | the walk below a prefix writes exactly the paths that continue it to a file of the tree, through no pruned directory, ending in a name that is not skipped |
| Packaging.WalkWritesOnlySelected | package_project.py:26-35 | every path the walk writes leads to a file of the tree, through no pruned directory, and the file is not skipped |
| Packaging.WalkWritesEverySelected | package_project.py:26-35 | every file reached through no pruned directory and not skipped is written by the walk |
| Packaging.ArchiveHoldsKeptFiles | package_project.py:26-35 | the archive holds a path if and only if it leads to a file through no pruned directory and the file is not skipped |
| Packaging.NothingExcludedIsWritten | package_project.py:13-32 | no archive entry passes through or names an excluded entry, so, for an archive name without a directory part, the archive never goes into itself |
| Packaging.WalkStartsWithEntry | package_project.py:33-34 | every path written below a directory continues that directory's path with the name of one of its entries |
| Packaging.FilesOfDistinct | package_project.py:30-35 | with distinct sibling names, no file of a directory is written twice |
| Packaging.WalkDistinct | package_project.py:26-35 | on a tree whose sibling names differ, no path is written twice |
| Packaging.WalkDirsDistinct | package_project.py:26-28 | the walks of distinct subdirectories never write the same path |
| Packaging.ExcludedEntryAddsNothing | package_project.py:28-32 | a pruned directory, with everything beneath it, and a skipped file add nothing to the archive |
| Packaging.DefaultArchiveDirPruned | package_project.py:12-28 | with the default name, a directory called "EvaluacionModular10.zip" is pruned |
| Packaging.KeptFileWrittenFirst | package_project.py:30-35 | a kept file is written before everything its directory lists after it |
| Packaging.WholeNamesOnly | package_project.py:28-31 | names match whole: "venv2", "my.git" and ".gitignore" are written, ".env" is not |

## Left out

- Floating point: feature values are carried as decoded JSON and are never computed
  with. Probabilities are kept as reals. The confidence percentage at
  `frontend/frontend.py:335` is not modelled.
- Framework and libraries: Flask routing, CORS, logging, startup loading of the
  artifacts, `jsonify`, and the pandas and scikit-learn calls. The classifier is a
  function parameter. CSV parsing is an `Upload` value, either rows or an unreadable
  file.
- Api.ClassifyFrame: the classifier is applied row by row. A frame that fails as a
  whole while every row alone would succeed is not modelled.
- Api.PredictBatch: a zero-row frame is refused, since the classifier refuses empty
  input.
- Api.Predict: `invalid_features` is a set. The source builds a list from a set, so
  its order is unspecified.
- ArrayApi.ErrorText: the text of a TypeError raised by `in` or by the subscript is
  Python's own and is not modelled. The model only says that such a response exists.
- PyStr.Title: only ASCII letters are cased. Python's Unicode case mapping is not
  modelled, and neither are titlecase digraphs.
- Frontend.FallbackDropsFirstMean: what follows the first removal is stated through
  the replacement scan itself. No lemma relates it to the replacement of the
  remaining suffix.
- The dashboard's Streamlit pages, CSS, charts, session state, HTTP calls and cache.
  Only the helpers and the verdict branch are modelled.
- The other endpoints: the root endpoint of both services, the health and
  example-case endpoints of `api/api.py`, and image serving (`api/api.py:154-160`).
  `app.py` has only `/` and `/predict`.
- The training scripts (`model/train_model.py`, `train_model.py`).
- Packaging.Empaquetar: the zip file's contents and compression, the progress
  messages, and symbolic links are not modelled. Paths are kept as lists of names;
  the joined string with the platform's separator is not. The directory listing
  order is taken as given.

=== FILE: api.dfy ===
/** The name-keyed prediction service (api/api.py). A client posts one sample as
    a JSON object from feature name to value; the service checks the body,
    lays the values out as one row in the stored canonical feature order (a
    feature that was not sent counts as 0) and asks the trained classifier. A
    CSV upload gets the same column layout row by row. The stored feature
    information and the classifier are loaded once at start-up and only read
    afterwards, so they are parameters here. */
module Api {

  import opened Common
  import FeatureNames

  /** The stored feature information: canonical feature order and class names. */
  datatype FeatureInfo = FeatureInfo(featureNames: seq<string>, targetNames: seq<string>)

  /** The outcome of `POST /predict`. */
  datatype PredictResponse =
    | Prediction(input: map<string, Json>, prediction: int, probability: seq<real>)
    | NoData
    | NotAnObject
    | InvalidFeatures(invalid: set<string>)
    | NoRecognizedFeatures
    | PredictionFailed

  /** A multipart upload as the batch endpoint sees it: no part named "file", a
      part the CSV reader refuses, or the rows it read, each row a map from
      column header to cell. The CSV reader gives every row every header column
      (an empty cell is a present missing value), so in an upload read from a
      file all rows have the same keys; the model does not need that. */
  datatype Upload = NoFile | UnreadableCsv(reason: string) | Csv(rows: seq<map<string, Json>>)

  /** The outcome of `POST /predict/batch`. */
  datatype BatchResponse =
    | BatchPredictions(predictions: seq<int>, probabilities: seq<seq<real>>)
    | MissingFile
    | BatchFailed

  /** The body of `GET /model/info`. */
  datatype ModelInfoBody = ModelInfoBody(features: seq<string>, targets: seq<string>, metrics: Json)

  /** The classifier, applied to one row laid out in canonical order. */
  type Classifier = seq<Json> -> Inference

  /** The value pandas writes into a column that was not sent (`fill_value=0`). */
  const Zero: Json := Num(0.0)

  function ValidFeatures(info: FeatureInfo): set<string>
  {
    Elements(info.featureNames)
  }

  // ---------------------------------------------------------------------------
  // Reindexing

  /** `DataFrame.reindex(columns=names, fill_value=fill)` on one row: one cell per
      canonical name, in that order, taken from the row when it has the column
      and `fill` otherwise; columns not among `names` are dropped. */
  function Reindex<V>(names: seq<string>, data: map<string, V>, fill: V): (row: seq<V>)
    ensures |row| == |names|
    ensures forall i | 0 <= i < |names| :: names[i] in data ==> row[i] == data[names[i]]
    ensures forall i | 0 <= i < |names| :: names[i] !in data ==> row[i] == fill
  {
    if names == [] then []
    else
      var last := names[|names| - 1];
      Reindex(names[..|names| - 1], data, fill) + [if last in data then data[last] else fill]
  }

  /** A row read back column by column: the value under each name. */
  function Columns<V>(names: seq<string>, row: seq<V>): (cols: map<string, V>)
    requires Distinct(names) && |row| == |names|
    ensures cols.Keys == Elements(names)
  {
    map i | 0 <= i < |names| :: names[i] := row[i]
  }

  /** With distinct canonical names, reading the reindexed row back gives every
      value that was sent under its own name and `fill` under every other
      canonical name: nothing sent under a canonical name is lost or moved. */
  lemma ReindexRoundTrip<V>(names: seq<string>, data: map<string, V>, fill: V)
    requires Distinct(names)
    ensures forall k | k in data.Keys * Elements(names) :: Columns(names, Reindex(names, data, fill))[k] == data[k]
    ensures forall k | k in Elements(names) - data.Keys :: Columns(names, Reindex(names, data, fill))[k] == fill
  {
    var row := Reindex(names, data, fill);
    var cols := Columns(names, row);
    forall k | k in Elements(names) ensures cols[k] == if k in data then data[k] else fill {
      var i :| 0 <= i < |names| && names[i] == k;
      assert cols[names[i]] == row[i];
    }
  }

  /** Columns outside the canonical names play no part in the row. */
  lemma ReindexDropsExtra<V>(names: seq<string>, data: map<string, V>, fill: V)
    ensures Reindex(names, data, fill) == Reindex(names, data - (data.Keys - Elements(names)), fill)
  {
    var kept := data - (data.Keys - Elements(names));
    var a, b := Reindex(names, data, fill), Reindex(names, kept, fill);
    forall i | 0 <= i < |names| ensures a[i] == b[i] {
      assert names[i] in Elements(names);
    }
  }

  // ---------------------------------------------------------------------------
  // POST /predict

  /** The handler: the body must be present and truthy, then a JSON object, then
      use only canonical names; the accepted map is reindexed with 0 and given to
      the classifier. Anything raised on the way, including a body the framework
      cannot decode, ends in the generic failure. */
  function Predict(info: FeatureInfo, classify: Classifier, request: Request): (r: PredictResponse)
    ensures r.InvalidFeatures? ==> r.invalid != {} && r.invalid !! ValidFeatures(info)
    ensures r.Prediction? ==> request.Parsed? && request.body == Obj(r.input)
  {
    match request
    case Unparsable(_) => PredictionFailed
    case Parsed(data) =>
      if !Truthy(data) then NoData
      else if !data.Obj? then NotAnObject
      else
        var valid := ValidFeatures(info);
        var provided := data.fields.Keys;
        if !(provided <= valid) then
          NotSubsetLeavesDifference(provided, valid);
          InvalidFeatures(provided - valid)
        else if |provided| == 0 then NoRecognizedFeatures
        else
          match classify(Reindex(info.featureNames, data.fields, Zero))
          case Raised(_) => PredictionFailed
          case Predicted(c, p) => Prediction(data.fields, c, p)
  }

  lemma NotSubsetLeavesDifference<T>(a: set<T>, b: set<T>)
    requires !(a <= b)
    ensures a - b != {}
  {
    var x :| x in a && x !in b;
    assert x in a - b;
  }

  /** The JSON body of a successful response: the input echoed, the integer
      class and the class probabilities. */
  function SuccessBody(r: PredictResponse): (body: map<string, Json>)
    requires r.Prediction?
    ensures body.Keys == {"input", "prediction", "probability"}
    ensures body["input"] == Obj(r.input) && body["prediction"] == Num(r.prediction as real)
    ensures body["probability"].Arr? && |body["probability"].items| == |r.probability|
    ensures forall i | 0 <= i < |r.probability| :: body["probability"].items[i] == Num(r.probability[i])
  {
    map["input" := Obj(r.input),
        "prediction" := Num(r.prediction as real),
        "probability" := Arr(seq(|r.probability|, i requires 0 <= i < |r.probability| => Num(r.probability[i])))]
  }

  /** The HTTP status of a response. */
  function Status(r: PredictResponse): (code: int)
    ensures code == 200 <==> r.Prediction?
    ensures code == 400 <==> !r.Prediction?
  {
    if r.Prediction? then 200 else 400
  }

  /** The `"error"` text of a failed response. */
  function ErrorMessage(r: PredictResponse): (msg: Option<string>)
    ensures msg.None? <==> r.Prediction?
    ensures r.NoData? ==> msg == Some("No se enviaron datos en el JSON")
    ensures r.NotAnObject? ==> msg == Some("El formato debe ser un diccionario JSON")
    ensures r.InvalidFeatures? ==> msg == Some("Se enviaron características inválidas")
    ensures r.NoRecognizedFeatures? ==> msg == Some("No se enviaron características reconocidas")
    ensures r.PredictionFailed? ==> msg == Some("Error en la predicción. Revisa los datos enviados.")
  {
    match r
    case Prediction(_, _, _) => None
    case NoData => Some("No se enviaron datos en el JSON")
    case NotAnObject => Some("El formato debe ser un diccionario JSON")
    case InvalidFeatures(_) => Some("Se enviaron características inválidas")
    case NoRecognizedFeatures => Some("No se enviaron características reconocidas")
    case PredictionFailed => Some("Error en la predicción. Revisa los datos enviados.")
  }

  /** A falsy body (null, false, 0, "", [], {}) is refused as "no data" before any
      other check, whatever the feature information or the classifier. */
  lemma FalsyBodyIsNoData(info: FeatureInfo, classify: Classifier, data: Json)
    requires !Truthy(data)
    ensures Predict(info, classify, Parsed(data)) == NoData
    ensures Status(Predict(info, classify, Parsed(data))) == 400
  {
  }

  /** So the empty object never reaches the "no recognized features" branch: the
      handler never produces that response at all. */
  lemma NoRecognizedFeaturesUnreachable(info: FeatureInfo, classify: Classifier, request: Request)
    ensures Predict(info, classify, request) != NoRecognizedFeatures
  {
    if request.Parsed? && request.body.Obj? && Truthy(request.body) {
      ObjectTruthyIffNonEmpty(request.body.fields);
    }
  }

  /** A truthy body that is not an object (a non-empty list, a non-zero number, a
      non-empty string, true) is refused for its format. */
  lemma NonObjectRefused(info: FeatureInfo, classify: Classifier, data: Json)
    requires Truthy(data) && !data.Obj?
    ensures Predict(info, classify, Parsed(data)) == NotAnObject
  {
  }

  /** An object with a non-canonical key is refused, and the refusal lists exactly
      the keys that are not canonical. */
  lemma InvalidFeaturesExact(info: FeatureInfo, classify: Classifier, fields: map<string, Json>)
    requires |fields| > 0
    ensures Predict(info, classify, Parsed(Obj(fields))).InvalidFeatures? <==> !(fields.Keys <= ValidFeatures(info))
    ensures Predict(info, classify, Parsed(Obj(fields))).InvalidFeatures? ==>
      Predict(info, classify, Parsed(Obj(fields))).invalid == fields.Keys - ValidFeatures(info)
  {
    ObjectTruthyIffNonEmpty(fields);
  }

  /** The refused body of tests/test_api.py, `{"foo": "bar"}`, gets 400 and an
      error text whenever "foo" is not a canonical name. */
  lemma FooBarRefused(info: FeatureInfo, classify: Classifier)
    requires "foo" !in info.featureNames
    ensures Predict(info, classify, Parsed(Obj(map["foo" := Str("bar")]))) == InvalidFeatures({"foo"})
    ensures Status(Predict(info, classify, Parsed(Obj(map["foo" := Str("bar")])))) == 400
    ensures ErrorMessage(Predict(info, classify, Parsed(Obj(map["foo" := Str("bar")])))).Some?
  {
    var fields := map["foo" := Str("bar")];
    assert "foo" in fields.Keys - ValidFeatures(info);
    assert fields.Keys - ValidFeatures(info) == {"foo"};
  }

  /** A non-empty object over canonical names reaches the classifier with the row
      reindexed in canonical order, and on success the response echoes the input
      unchanged together with the class. */
  lemma AcceptedBodyIsClassified(info: FeatureInfo, classify: Classifier, fields: map<string, Json>)
    requires |fields| > 0 && fields.Keys <= ValidFeatures(info)
    ensures classify(Reindex(info.featureNames, fields, Zero)).Predicted? ==>
      Predict(info, classify, Parsed(Obj(fields))) ==
        Prediction(fields, classify(Reindex(info.featureNames, fields, Zero)).classId,
                   classify(Reindex(info.featureNames, fields, Zero)).probability)
    ensures classify(Reindex(info.featureNames, fields, Zero)).Raised? ==>
      Predict(info, classify, Parsed(Obj(fields))) == PredictionFailed
  {
    ObjectTruthyIffNonEmpty(fields);
  }

  /** A failure says nothing about its cause: two classifiers that raise on the
      same rows, and agree wherever they answer, give the same response whatever
      their messages. */
  lemma FailureHidesCause(info: FeatureInfo, c1: Classifier, c2: Classifier, request: Request)
    requires forall row :: c1(row).Raised? <==> c2(row).Raised?
    requires forall row :: c1(row).Predicted? ==> c1(row) == c2(row)
    ensures Predict(info, c1, request) == Predict(info, c2, request)
    ensures (forall row :: c1(row).Raised?) ==> !Predict(info, c1, request).Prediction?
  {
  }

  /** The benign case of tests/test_api.py sends only the ten "mean" features;
      with the breast cancer data set's names as the canonical order, that body
      passes every check and reaches the classifier. */
  lemma MeanOnlyBodyAccepted(info: FeatureInfo, classify: Classifier, fields: map<string, Json>)
    requires ValidFeatures(info) == FeatureNames.FeatureTranslations.Keys
    requires fields.Keys == FeatureNames.Image(FeatureNames.Measurements, FeatureNames.MeanKey)
    requires classify(Reindex(info.featureNames, fields, Zero)).Predicted?
    ensures Predict(info, classify, Parsed(Obj(fields))).Prediction?
    ensures Status(Predict(info, classify, Parsed(Obj(fields)))) == 200
  {
    FeatureNames.KeysAreThreeGroupsOfTen();
    var m := FeatureNames.Measurements[0];
    assert FeatureNames.MeanKey(m) in fields.Keys;
    AcceptedBodyIsClassified(info, classify, fields);
  }

  // ---------------------------------------------------------------------------
  // GET /model/info

  /** The stored names and classes are handed out as they are, in stored order. */
  function ModelInfo(info: FeatureInfo, metrics: Json): (body: ModelInfoBody)
    ensures body.features == info.featureNames
    ensures Elements(body.features) == ValidFeatures(info)
    ensures body.targets == info.targetNames && body.metrics == metrics
  {
    ModelInfoBody(info.featureNames, info.targetNames, metrics)
  }

  /** A client that fills in a value for every feature `/model/info` lists (as the
      dashboard form does) sends a body the handler accepts, as long as the list
      is not empty. */
  lemma ModelInfoFeaturesAccepted(info: FeatureInfo, metrics: Json, classify: Classifier, fields: map<string, Json>)
    requires fields.Keys == Elements(ModelInfo(info, metrics).features)
    requires |ModelInfo(info, metrics).features| > 0
    requires classify(Reindex(info.featureNames, fields, Zero)).Predicted?
    ensures Predict(info, classify, Parsed(Obj(fields))).Prediction?
    ensures Predict(info, classify, Parsed(Obj(fields))).input == fields
  {
    assert info.featureNames[0] in fields.Keys;
    AcceptedBodyIsClassified(info, classify, fields);
  }

  // ---------------------------------------------------------------------------
  // POST /predict/batch

  /** Every row reindexed to the canonical columns. */
  function ReindexFrame(names: seq<string>, rows: seq<map<string, Json>>): (frame: seq<seq<Json>>)
    ensures |frame| == |rows|
    ensures forall i | 0 <= i < |rows| :: frame[i] == Reindex(names, rows[i], Zero)
  {
    if rows == [] then []
    else ReindexFrame(names, rows[..|rows| - 1]) + [Reindex(names, rows[|rows| - 1], Zero)]
  }

  /** The classifier over a whole frame: it fails if it fails on any row, and
      otherwise yields one class and one probability vector per row, in row order. */
  function ClassifyFrame(classify: Classifier, frame: seq<seq<Json>>): (r: Option<(seq<int>, seq<seq<real>>)>)
    ensures r.None? <==> exists i | 0 <= i < |frame| :: classify(frame[i]).Raised?
    ensures r.Some? ==> |r.value.0| == |frame| && |r.value.1| == |frame|
    ensures r.Some? ==> forall i | 0 <= i < |frame| ::
      r.value.0[i] == classify(frame[i]).classId && r.value.1[i] == classify(frame[i]).probability
  {
    if frame == [] then Some(([], []))
    else
      var n := |frame| - 1;
      match ClassifyFrame(classify, frame[..n])
      case None => None
      case Some((ps, qs)) =>
        match classify(frame[n])
        case Raised(_) => None
        case Predicted(c, p) => Some((ps + [c], qs + [p]))
  }

  /** The batch handler: without a "file" part 400; a file the CSV reader refuses,
      a file without data rows (the classifier refuses an empty frame) or a
      failure on any row give the generic failure. */
  function PredictBatch(info: FeatureInfo, classify: Classifier, upload: Upload): (r: BatchResponse)
    ensures r == MissingFile <==> upload.NoFile?
  {
    match upload
    case NoFile => MissingFile
    case UnreadableCsv(_) => BatchFailed
    case Csv(rows) =>
      if rows == [] then BatchFailed
      else
        match ClassifyFrame(classify, ReindexFrame(info.featureNames, rows))
        case None => BatchFailed
        case Some((ps, qs)) => BatchPredictions(ps, qs)
  }

  /** The HTTP status of a batch response: the success body goes out with the
      default 200, every refusal and failure with 400. */
  function BatchStatus(r: BatchResponse): (code: int)
    ensures code == 200 <==> r.BatchPredictions?
    ensures code == 400 <==> !r.BatchPredictions?
  {
    if r.BatchPredictions? then 200 else 400
  }

  /** The `"error"` text of a failed batch response. */
  function BatchErrorMessage(r: BatchResponse): (msg: Option<string>)
    ensures msg.None? <==> r.BatchPredictions?
    ensures r.MissingFile? ==> msg == Some("No se encontró archivo en la petición")
    ensures r.BatchFailed? ==> msg == Some("Error al procesar el archivo. Revisa el formato CSV.")
  {
    match r
    case BatchPredictions(_, _) => None
    case MissingFile => Some("No se encontró archivo en la petición")
    case BatchFailed => Some("Error al procesar el archivo. Revisa el formato CSV.")
  }

  /** An upload without a "file" part gets 400 and the missing-file text; an
      unreadable file, or an empty one, gets 400 and the CSV text. */
  lemma BatchRefusals(info: FeatureInfo, classify: Classifier, reason: string)
    ensures BatchStatus(PredictBatch(info, classify, NoFile)) == 400
    ensures BatchErrorMessage(PredictBatch(info, classify, NoFile)) == Some("No se encontró archivo en la petición")
    ensures BatchStatus(PredictBatch(info, classify, UnreadableCsv(reason))) == 400
    ensures BatchErrorMessage(PredictBatch(info, classify, UnreadableCsv(reason))) ==
      Some("Error al procesar el archivo. Revisa el formato CSV.")
    ensures BatchStatus(PredictBatch(info, classify, Csv([]))) == 400
  {
  }

  /** One prediction and one probability vector per uploaded row, each the
      classifier's answer on that row reindexed to the canonical columns. */
  lemma BatchOnePerRow(info: FeatureInfo, classify: Classifier, rows: seq<map<string, Json>>)
    requires PredictBatch(info, classify, Csv(rows)).BatchPredictions?
    ensures |PredictBatch(info, classify, Csv(rows)).predictions| == |rows|
    ensures |PredictBatch(info, classify, Csv(rows)).probabilities| == |rows|
    ensures forall i | 0 <= i < |rows| ::
      PredictBatch(info, classify, Csv(rows)).predictions[i] == classify(Reindex(info.featureNames, rows[i], Zero)).classId
    ensures forall i | 0 <= i < |rows| ::
      PredictBatch(info, classify, Csv(rows)).probabilities[i] == classify(Reindex(info.featureNames, rows[i], Zero)).probability
  {
  }

  /** The batch succeeds exactly when there is at least one row and the classifier
      answers on every one of them. */
  lemma BatchSucceedsIff(info: FeatureInfo, classify: Classifier, rows: seq<map<string, Json>>)
    ensures PredictBatch(info, classify, Csv(rows)).BatchPredictions? <==>
      |rows| > 0 && forall i | 0 <= i < |rows| :: classify(Reindex(info.featureNames, rows[i], Zero)).Predicted?
  {
    var frame := ReindexFrame(info.featureNames, rows);
    if |rows| > 0 && forall i | 0 <= i < |rows| :: classify(Reindex(info.featureNames, rows[i], Zero)).Predicted? {
      forall i | 0 <= i < |frame| ensures !classify(frame[i]).Raised? {
        assert frame[i] == Reindex(info.featureNames, rows[i], Zero);
      }
    }
  }

  /** Extra columns in the upload change nothing: the response is the one for the
      same rows cut down to the canonical columns. */
  lemma BatchIgnoresExtraColumns(info: FeatureInfo, classify: Classifier, rows: seq<map<string, Json>>)
    ensures PredictBatch(info, classify, Csv(rows)) ==
      PredictBatch(info, classify, Csv(seq(|rows|, i requires 0 <= i < |rows| =>
        rows[i] - (rows[i].Keys - ValidFeatures(info)))))
  {
    var cut := seq(|rows|, i requires 0 <= i < |rows| => rows[i] - (rows[i].Keys - ValidFeatures(info)));
    forall i | 0 <= i < |rows| ensures Reindex(info.featureNames, rows[i], Zero) == Reindex(info.featureNames, cut[i], Zero) {
      assert cut[i] == rows[i] - (rows[i].Keys - ValidFeatures(info));
      ReindexDropsExtra(info.featureNames, rows[i], Zero);
    }
    assert ReindexFrame(info.featureNames, rows) == ReindexFrame(info.featureNames, cut);
  }

  /** A one-row upload of a valid sample gets the class the single-sample
      endpoint gives the same sample. */
  lemma BatchOfOneAgreesWithSingle(info: FeatureInfo, classify: Classifier, fields: map<string, Json>)
    requires |fields| > 0 && fields.Keys <= ValidFeatures(info)
    ensures PredictBatch(info, classify, Csv([fields])).BatchPredictions? <==>
      Predict(info, classify, Parsed(Obj(fields))).Prediction?
    ensures PredictBatch(info, classify, Csv([fields])).BatchPredictions? ==>
      PredictBatch(info, classify, Csv([fields])).predictions ==
        [Predict(info, classify, Parsed(Obj(fields))).prediction]
  {
    AcceptedBodyIsClassified(info, classify, fields);
    BatchSucceedsIff(info, classify, [fields]);
  }
}

=== FILE: array_api.dfy ===
/** The array-keyed prediction service (app.py). A client posts
    `{"features": [...]}`; the handler checks only that the body is truthy and
    that "features" is in it, hands the value to the classifier as one row of
    whatever length was sent, and names the class. Every exception is answered
    with 500 and the exception's own text. */
module ArrayApi {

  import opened Common
  import opened PyStr
  import Api

  /** The class table of the service: class 0 is malignant, class 1 benign. */
  const Classes: map<int, string> := map[0 := "malignant", 1 := "benign"]

  /** What went wrong inside the handler's `try`. */
  datatype Cause =
    | NotIterable(body: Json)      // `"features" in data` on a number or a boolean
    | NotSubscriptable(body: Json) // `data["features"]` on a list or a string
    | Exception(message: string)   // decoding the body, or the classifier itself

  datatype ArrayResponse =
    | Classified(prediction: int, className: string)
    | NoValidData
    | ServerError(cause: Cause)

  /** The classifier, given the value sent under "features". */
  type Classifier = Json -> Inference

  /** `CLASSES.get(c, "unknown")`. */
  function ClassName(c: int): (name: string)
    ensures name == "malignant" <==> c == 0
    ensures name == "benign" <==> c == 1
    ensures name == "unknown" <==> c != 0 && c != 1
  {
    if c in Classes then Classes[c] else "unknown"
  }

  /** Python's `"features" in data` on a truthy body: a key test on an object, an
      element test on a list, a substring test on a string, and a TypeError
      (`None` here) on a number or a boolean. */
  function FeaturesIn(data: Json): (r: Option<bool>)
    ensures r.None? <==> data.Num? || data.Bool? || data.Null?
  {
    match data
    case Obj(fields) => Some("features" in fields)
    case Arr(items) => Some(Str("features") in items)
    case Str(s) => Some(Contains(s, "features"))
    case _ => None
  }

  /** The handler. */
  function PredictArray(classify: Classifier, request: Request): (r: ArrayResponse)
    ensures r.Classified? ==> request.Parsed? && request.body.Obj? && "features" in request.body.fields
  {
    match request
    case Unparsable(reason) => ServerError(Exception(reason))
    case Parsed(data) =>
      if !Truthy(data) then NoValidData
      else
        match FeaturesIn(data)
        case None => ServerError(NotIterable(data))
        case Some(false) => NoValidData
        case Some(true) =>
          if !data.Obj? then ServerError(NotSubscriptable(data))
          else
            match classify(data.fields["features"])
            case Raised(m) => ServerError(Exception(m))
            case Predicted(c, _) => Classified(c, ClassName(c))
  }

  function Status(r: ArrayResponse): (code: int)
    ensures code == 200 <==> r.Classified?
    ensures code == 400 <==> r.NoValidData?
    ensures code == 500 <==> r.ServerError?
  {
    match r
    case Classified(_, _) => 200
    case NoValidData => 400
    case ServerError(_) => 500
  }

  /** The `"error"` text of a failed response: the fixed warning for a 400, the
      exception's own text for a 500 when it comes from decoding or the classifier. */
  function ErrorText(r: ArrayResponse): (msg: Option<string>)
    ensures r.NoValidData? ==> msg == Some("⚠️ No se recibieron datos válidos")
    ensures r.ServerError? && r.cause.Exception? ==> msg == Some(r.cause.message)
    ensures r.Classified? ==> msg.None?
  {
    match r
    case Classified(_, _) => None
    case NoValidData => Some("⚠️ No se recibieron datos válidos")
    case ServerError(Exception(m)) => Some(m)
    case ServerError(_) => Some("TypeError")
  }

  /** A falsy body, or an object without the key "features", gets 400. The probe
      `{"foo": "bar"}` of test_api.py is one of them. */
  lemma MissingFeaturesRefused(classify: Classifier, data: Json)
    requires !Truthy(data) || (data.Obj? && "features" !in data.fields)
    ensures PredictArray(classify, Parsed(data)) == NoValidData
    ensures Status(PredictArray(classify, Parsed(data))) == 400
  {
    if Truthy(data) {
      ObjectTruthyIffNonEmpty(data.fields);
    }
  }

  lemma FooBarRefused(classify: Classifier)
    ensures Status(PredictArray(classify, Parsed(Obj(map["foo" := Str("bar")])))) == 400
  {
    MissingFeaturesRefused(classify, Obj(map["foo" := Str("bar")]));
  }

  /** There is no length check: whatever value is sent under "features", the
      handler answers with the classifier's verdict, and the success body holds
      exactly the class and its name. */
  lemma NoLengthCheck(classify: Classifier, fields: map<string, Json>)
    requires "features" in fields && classify(fields["features"]).Predicted?
    ensures PredictArray(classify, Parsed(Obj(fields))) ==
      Classified(classify(fields["features"]).classId, ClassName(classify(fields["features"]).classId))
  {
    assert "features" in fields.Keys;
    ObjectTruthyIffNonEmpty(fields);
  }

  /** An exception in the classifier (a row of the wrong length, say) reaches the
      client as 500 with the exception's own text. */
  lemma ExceptionTextLeaks(classify: Classifier, fields: map<string, Json>)
    requires "features" in fields && classify(fields["features"]).Raised?
    ensures Status(PredictArray(classify, Parsed(Obj(fields)))) == 500
    ensures ErrorText(PredictArray(classify, Parsed(Obj(fields)))) == Some(classify(fields["features"]).message)
  {
    assert "features" in fields.Keys;
    ObjectTruthyIffNonEmpty(fields);
  }

  /** A non-zero number or `true` makes the `in` test itself raise, so it gets 500
      where zero and `false` get 400. */
  lemma ScalarBodies(classify: Classifier, x: real, b: bool)
    ensures Status(PredictArray(classify, Parsed(Num(x)))) == if x == 0.0 then 400 else 500
    ensures Status(PredictArray(classify, Parsed(Bool(b)))) == if b then 500 else 400
  {
  }

  /** A list holding the string "features" passes the presence check and then
      fails on the subscript. */
  lemma ListNamingFeaturesFails(classify: Classifier, items: seq<Json>)
    requires Str("features") in items
    ensures PredictArray(classify, Parsed(Arr(items))) == ServerError(NotSubscriptable(Arr(items)))
  {
  }

  /** The two services disagree on failures: where the name-keyed service answers
      a classifier failing on its sample with 400 and a fixed text, this one
      answers a classifier failing on its sample with 500 and the exception's
      text. Each service gets the body it expects. */
  lemma FailureHandlingDiffers(info: Api.FeatureInfo, named: Api.Classifier, fields: map<string, Json>,
                               arrayed: Classifier, sample: Json, message: string)
    requires |fields| > 0 && fields.Keys <= Api.ValidFeatures(info)
    requires named(Api.Reindex(info.featureNames, fields, Api.Zero)) == Raised(message)
    requires arrayed(sample) == Raised(message)
    ensures Api.Status(Api.Predict(info, named, Parsed(Obj(fields)))) == 400
    ensures Api.ErrorMessage(Api.Predict(info, named, Parsed(Obj(fields)))) ==
      Some("Error en la predicción. Revisa los datos enviados.")
    ensures Status(PredictArray(arrayed, Parsed(Obj(map["features" := sample])))) == 500
    ensures ErrorText(PredictArray(arrayed, Parsed(Obj(map["features" := sample])))) == Some(message)
  {
    Api.AcceptedBodyIsClassified(info, named, fields);
    ExceptionTextLeaks(arrayed, map["features" := sample]);
  }
}

=== FILE: common.dfy ===
/** Values shared by the two prediction services and the dashboard: a decoded JSON
    document, the outcome of reading a request body, and the outcome of asking the
    trained classifier for a prediction. */
module Common {

  datatype Option<T> = None | Some(value: T)

  /** A decoded JSON document. Feature values travel inside it untouched: no
      operation of the services computes with them, so numbers are kept as
      mathematical reals only to tell zero from non-zero. */
  datatype Json =
    | Null
    | Bool(b: bool)
    | Num(x: real)
    | Str(s: string)
    | Arr(items: seq<Json>)
    | Obj(fields: map<string, Json>)

  /** Python's truth value of a decoded JSON document, as `if not data` tests it:
      null, false, zero, "", [] and {} are false, everything else is true. */
  predicate Truthy(j: Json)
  {
    match j
    case Null => false
    case Bool(b) => b
    case Num(x) => x != 0.0
    case Str(s) => s != []
    case Arr(items) => items != []
    case Obj(fields) => fields != map[]
  }

  /** What the web framework makes of the request body: a decoded document, or a
      failure (malformed JSON, a body that is not JSON) raised as an exception
      with a message inside the handler. */
  datatype Request = Parsed(body: Json) | Unparsable(reason: string)

  /** The trained classifier answering for one sample: it either raises (with the
      exception's text) or yields the integer class and the class probabilities. */
  datatype Inference = Raised(message: string) | Predicted(classId: int, probability: seq<real>)

  /** The elements a sequence holds, as Python's `set(xs)`. */
  function Elements<T>(xs: seq<T>): set<T>
  {
    set x <- xs
  }

  /** No element occurs twice. */
  predicate Distinct<T(==)>(xs: seq<T>)
  {
    forall i, j | 0 <= i < j < |xs| :: xs[i] != xs[j]
  }

  lemma DistinctConcat<T>(a: seq<T>, b: seq<T>)
    requires Distinct(a) && Distinct(b)
    requires forall i, j | 0 <= i < |a| && 0 <= j < |b| :: a[i] != b[j]
    ensures Distinct(a + b)
  {
  }

  /** A JSON object literal is false exactly when it has no keys. */
  lemma ObjectTruthyIffNonEmpty(fields: map<string, Json>)
    ensures Truthy(Obj(fields)) <==> |fields| > 0
  {
    if |fields| > 0 {
      var k :| k in fields;
      assert k in fields.Keys;
    }
  }
}

=== FILE: feature_names.dfy ===
/** The Spanish display names of the thirty features of the Wisconsin breast
    cancer data set (utils/feature_names.py). The source writes one dictionary
    literal in three commented blocks, one per statistic. The model keeps the
    literal as written, an ordered list of key/value pairs per block, and reads
    it as Python reads a dictionary display: a later duplicate key would win. */
module FeatureNames {

  import opened Common
  import opened PyStr

  type Entries = seq<(string, string)>

  /** The ten cell-nucleus measurements every statistic is taken over. */
  const Measurements: seq<string> := [
    "radius",
    "texture",
    "perimeter",
    "area",
    "smoothness",
    "compactness",
    "concavity",
    "concave points",
    "symmetry",
    "fractal dimension"
  ]

  /** Block "Promedios (mean)", utils/feature_names.py:14-23. */
  const MeanEntries: seq<(string, string)> := [
    ("mean radius", "Radio promedio"),
    ("mean texture", "Textura promedio"),
    ("mean perimeter", "Perímetro promedio"),
    ("mean area", "Área promedio"),
    ("mean smoothness", "Suavidad promedio"),
    ("mean compactness", "Compacidad promedio"),
    ("mean concavity", "Concavidad promedio"),
    ("mean concave points", "Puntos cóncavos promedio"),
    ("mean symmetry", "Simetría promedio"),
    ("mean fractal dimension", "Dimensión fractal promedio")
  ]

  /** Block "Error estándar (se)", utils/feature_names.py:26-35. */
  const ErrorEntries: seq<(string, string)> := [
    ("radius error", "Error en radio"),
    ("texture error", "Error en textura"),
    ("perimeter error", "Error en perímetro"),
    ("area error", "Error en área"),
    ("smoothness error", "Error en suavidad"),
    ("compactness error", "Error en compacidad"),
    ("concavity error", "Error en concavidad"),
    ("concave points error", "Error en puntos cóncavos"),
    ("symmetry error", "Error en simetría"),
    ("fractal dimension error", "Error en dimensión fractal")
  ]

  /** Block "Peor valor (worst)", utils/feature_names.py:38-47. */
  const WorstEntries: seq<(string, string)> := [
    ("worst radius", "Radio peor caso"),
    ("worst texture", "Textura peor caso"),
    ("worst perimeter", "Perímetro peor caso"),
    ("worst area", "Área peor caso"),
    ("worst smoothness", "Suavidad peor caso"),
    ("worst compactness", "Compacidad peor caso"),
    ("worst concavity", "Concavidad peor caso"),
    ("worst concave points", "Puntos cóncavos peor caso"),
    ("worst symmetry", "Simetría peor caso"),
    ("worst fractal dimension", "Dimensión fractal peor caso")
  ]

  const TranslationEntries: Entries := MeanEntries + ErrorEntries + WorstEntries

  /** FEATURE_TRANSLATIONS. */
  const FeatureTranslations: map<string, string> := DictOf(TranslationEntries)

  /** The dictionary a display `{k0: v0, k1: v1, ...}` builds: entries are inserted
      left to right, so a key written twice keeps its last value. */
  function DictOf(entries: Entries): (d: map<string, string>)
    ensures d.Keys == set i | 0 <= i < |entries| :: entries[i].0
  {
    if entries == [] then map[]
    else
      var last := entries[|entries| - 1];
      DictOf(entries[..|entries| - 1])[last.0 := last.1]
  }

  function KeysOf(entries: Entries): (keys: seq<string>)
  {
    seq(|entries|, i requires 0 <= i < |entries| => entries[i].0)
  }

  function ValuesOf(entries: Entries): (values: seq<string>)
  {
    seq(|entries|, i requires 0 <= i < |entries| => entries[i].1)
  }

  /** The three ways the data set names a statistic of measurement `m`. */
  function MeanKey(m: string): string { "mean " + m }
  function ErrorKey(m: string): string { m + " error" }
  function WorstKey(m: string): string { "worst " + m }

  /** `f` applied to each of `ms`, in order. */
  function Apply(f: string -> string, ms: seq<string>): (r: seq<string>)
  {
    seq(|ms|, i requires 0 <= i < |ms| => f(ms[i]))
  }

  /** All values `f` takes on `ms`. */
  function Image(ms: seq<string>, f: string -> string): set<string>
  {
    set m <- ms :: f(m)
  }

  ghost predicate Injective(f: string -> string)
  {
    forall a, b :: f(a) == f(b) ==> a == b
  }

  ghost predicate InjectiveMap(t: map<string, string>)
  {
    forall k1 <- t.Keys, k2 <- t.Keys :: k1 != k2 ==> t[k1] != t[k2]
  }

  // ---------------------------------------------------------------------------
  // Dictionary displays

  /** With no key written twice, every entry is found under its key. */
  lemma {:induction false} DictOfLookup(entries: Entries, i: int)
    requires Distinct(KeysOf(entries))
    requires 0 <= i < |entries|
    ensures entries[i].0 in DictOf(entries) && DictOf(entries)[entries[i].0] == entries[i].1
  {
    var n := |entries| - 1;
    if i < n {
      var init := entries[..n];
      assert KeysOf(init) == KeysOf(entries)[..n];
      DictOfLookup(init, i);
      assert KeysOf(entries)[i] != KeysOf(entries)[n];
    }
  }

  /** With no key written twice, the dictionary has one key per entry. */
  lemma {:induction false} DictOfSize(entries: Entries)
    requires Distinct(KeysOf(entries))
    ensures |DictOf(entries)| == |entries|
  {
    if entries != [] {
      var n := |entries| - 1;
      var init := entries[..n];
      assert KeysOf(init) == KeysOf(entries)[..n];
      DictOfSize(init);
      assert entries[n].0 !in DictOf(init) by {
        forall i | 0 <= i < n ensures init[i].0 != entries[n].0 {
          assert KeysOf(entries)[i] != KeysOf(entries)[n];
        }
      }
    }
  }

  /** With neither a key nor a value written twice, the dictionary is one-to-one. */
  lemma DictOfInjective(entries: Entries)
    requires Distinct(KeysOf(entries)) && Distinct(ValuesOf(entries))
    ensures InjectiveMap(DictOf(entries))
  {
    var d := DictOf(entries);
    forall k1, k2 | k1 in d && k2 in d && k1 != k2 ensures d[k1] != d[k2] {
      var i :| 0 <= i < |entries| && entries[i].0 == k1;
      var j :| 0 <= j < |entries| && entries[j].0 == k2;
      DictOfLookup(entries, i);
      DictOfLookup(entries, j);
      assert ValuesOf(entries)[i] != ValuesOf(entries)[j] by {
        if i < j {} else {}
      }
    }
  }

  lemma DictOfKeys(entries: Entries)
    ensures DictOf(entries).Keys == Elements(KeysOf(entries))
  {
    forall k | k in Elements(KeysOf(entries)) ensures k in DictOf(entries) {
      var i :| 0 <= i < |entries| && KeysOf(entries)[i] == k;
    }
    forall k | k in DictOf(entries) ensures k in Elements(KeysOf(entries)) {
      var i :| 0 <= i < |entries| && entries[i].0 == k;
      assert KeysOf(entries)[i] == k;
    }
  }

  lemma ElementsOfConcat(a: seq<string>, b: seq<string>)
    ensures Elements(a + b) == Elements(a) + Elements(b)
  {
    forall x | x in Elements(a) ensures x in Elements(a + b) {
      var i :| 0 <= i < |a| && a[i] == x;
      assert (a + b)[i] == x;
    }
    forall x | x in Elements(b) ensures x in Elements(a + b) {
      var i :| 0 <= i < |b| && b[i] == x;
      assert (a + b)[|a| + i] == x;
    }
  }

  lemma ElementsOfApply(f: string -> string, ms: seq<string>)
    ensures Elements(Apply(f, ms)) == Image(ms, f)
  {
    forall x | x in Image(ms, f) ensures x in Elements(Apply(f, ms)) {
      var i :| 0 <= i < |ms| && f(ms[i]) == x;
      assert Apply(f, ms)[i] == x;
    }
  }

  // ---------------------------------------------------------------------------
  // Sequences without repetitions

  lemma ApplyDistinct(f: string -> string, ms: seq<string>)
    requires Distinct(ms) && Injective(f)
    ensures Distinct(Apply(f, ms))
  {
  }

  lemma KeyFunctionsInjective()
    ensures Injective(MeanKey) && Injective(ErrorKey) && Injective(WorstKey)
  {
    forall a, b | MeanKey(a) == MeanKey(b) ensures a == b {
      assert a == MeanKey(a)[5..] && b == MeanKey(b)[5..];
    }
    forall a, b | WorstKey(a) == WorstKey(b) ensures a == b {
      assert a == WorstKey(a)[6..] && b == WorstKey(b)[6..];
    }
    forall a, b | ErrorKey(a) == ErrorKey(b) ensures a == b {
      assert a == ErrorKey(a)[..|a|] && b == ErrorKey(b)[..|b|];
    }
  }

  // ---------------------------------------------------------------------------
  // Facts read off the literal

  lemma MeasurementsDistinct()
    ensures Distinct(Measurements)
  {
  }

  lemma MeasurementInitials()
    ensures forall i | 0 <= i < |Measurements| ::
      |Measurements[i]| > 0 && Measurements[i][0] != 'm' && Measurements[i][0] != 'w'
  {
  }

  lemma MeanKeysLow()
    ensures |MeanEntries| == |Measurements|
    ensures forall i | 0 <= i < 5 :: MeanEntries[i].0 == MeanKey(Measurements[i])
  {
    forall i | 0 <= i < 5 ensures MeanEntries[i].0 == MeanKey(Measurements[i]) {
      if i == 0 { assert MeanKey(Measurements[0]) == "mean radius"; }
      else if i == 1 { assert MeanKey(Measurements[1]) == "mean texture"; }
      else if i == 2 { assert MeanKey(Measurements[2]) == "mean perimeter"; }
      else if i == 3 { assert MeanKey(Measurements[3]) == "mean area"; }
      else { assert MeanKey(Measurements[4]) == "mean smoothness"; }
    }
  }

  lemma MeanKeysHigh()
    ensures |MeanEntries| == |Measurements|
    ensures forall i | 5 <= i < 10 :: MeanEntries[i].0 == MeanKey(Measurements[i])
  {
    forall i | 5 <= i < 10 ensures MeanEntries[i].0 == MeanKey(Measurements[i]) {
      if i == 5 { assert MeanKey(Measurements[5]) == "mean compactness"; }
      else if i == 6 { assert MeanKey(Measurements[6]) == "mean concavity"; }
      else if i == 7 { assert MeanKey(Measurements[7]) == "mean concave points"; }
      else if i == 8 { assert MeanKey(Measurements[8]) == "mean symmetry"; }
      else { assert MeanKey(Measurements[9]) == "mean fractal dimension"; }
    }
  }

  lemma MeanKeysInOrder()
    ensures |MeanEntries| == |Measurements|
    ensures forall i | 0 <= i < |Measurements| :: MeanEntries[i].0 == MeanKey(Measurements[i])
  {
    MeanKeysLow();
    MeanKeysHigh();
  }

  lemma ErrorKeysLow()
    ensures |ErrorEntries| == |Measurements|
    ensures forall i | 0 <= i < 5 :: ErrorEntries[i].0 == ErrorKey(Measurements[i])
  {
    forall i | 0 <= i < 5 ensures ErrorEntries[i].0 == ErrorKey(Measurements[i]) {
      if i == 0 { assert ErrorKey(Measurements[0]) == "radius error"; }
      else if i == 1 { assert ErrorKey(Measurements[1]) == "texture error"; }
      else if i == 2 { assert ErrorKey(Measurements[2]) == "perimeter error"; }
      else if i == 3 { assert ErrorKey(Measurements[3]) == "area error"; }
      else { assert ErrorKey(Measurements[4]) == "smoothness error"; }
    }
  }

  lemma ErrorKeysHigh()
    ensures |ErrorEntries| == |Measurements|
    ensures forall i | 5 <= i < 10 :: ErrorEntries[i].0 == ErrorKey(Measurements[i])
  {
    forall i | 5 <= i < 10 ensures ErrorEntries[i].0 == ErrorKey(Measurements[i]) {
      if i == 5 { assert ErrorKey(Measurements[5]) == "compactness error"; }
      else if i == 6 { assert ErrorKey(Measurements[6]) == "concavity error"; }
      else if i == 7 { assert ErrorKey(Measurements[7]) == "concave points error"; }
      else if i == 8 { assert ErrorKey(Measurements[8]) == "symmetry error"; }
      else { assert ErrorKey(Measurements[9]) == "fractal dimension error"; }
    }
  }

  lemma ErrorKeysInOrder()
    ensures |ErrorEntries| == |Measurements|
    ensures forall i | 0 <= i < |Measurements| :: ErrorEntries[i].0 == ErrorKey(Measurements[i])
  {
    ErrorKeysLow();
    ErrorKeysHigh();
  }

  lemma WorstKeysLow()
    ensures |WorstEntries| == |Measurements|
    ensures forall i | 0 <= i < 5 :: WorstEntries[i].0 == WorstKey(Measurements[i])
  {
    forall i | 0 <= i < 5 ensures WorstEntries[i].0 == WorstKey(Measurements[i]) {
      if i == 0 { assert WorstKey(Measurements[0]) == "worst radius"; }
      else if i == 1 { assert WorstKey(Measurements[1]) == "worst texture"; }
      else if i == 2 { assert WorstKey(Measurements[2]) == "worst perimeter"; }
      else if i == 3 { assert WorstKey(Measurements[3]) == "worst area"; }
      else { assert WorstKey(Measurements[4]) == "worst smoothness"; }
    }
  }

  lemma WorstKeysHigh()
    ensures |WorstEntries| == |Measurements|
    ensures forall i | 5 <= i < 10 :: WorstEntries[i].0 == WorstKey(Measurements[i])
  {
    forall i | 5 <= i < 10 ensures WorstEntries[i].0 == WorstKey(Measurements[i]) {
      if i == 5 { assert WorstKey(Measurements[5]) == "worst compactness"; }
      else if i == 6 { assert WorstKey(Measurements[6]) == "worst concavity"; }
      else if i == 7 { assert WorstKey(Measurements[7]) == "worst concave points"; }
      else if i == 8 { assert WorstKey(Measurements[8]) == "worst symmetry"; }
      else { assert WorstKey(Measurements[9]) == "worst fractal dimension"; }
    }
  }

  lemma WorstKeysInOrder()
    ensures |WorstEntries| == |Measurements|
    ensures forall i | 0 <= i < |Measurements| :: WorstEntries[i].0 == WorstKey(Measurements[i])
  {
    WorstKeysLow();
    WorstKeysHigh();
  }

  lemma MeanValuesLow()
    ensures forall i | 0 <= i < 5 :: EndsWith(MeanEntries[i].1, " promedio")
  {
  }

  lemma MeanValuesHigh()
    ensures forall i | 5 <= i < 10 :: EndsWith(MeanEntries[i].1, " promedio")
  {
  }

  lemma MeanValuesPattern()
    ensures forall i | 0 <= i < |MeanEntries| :: EndsWith(MeanEntries[i].1, " promedio")
  {
    MeanValuesLow();
    MeanValuesHigh();
  }

  lemma ErrorValuesLow()
    ensures forall i | 0 <= i < 5 :: StartsWith(ErrorEntries[i].1, "Error en ")
  {
  }

  lemma ErrorValuesHigh()
    ensures forall i | 5 <= i < 10 :: StartsWith(ErrorEntries[i].1, "Error en ")
  {
  }

  lemma ErrorValuesPattern()
    ensures forall i | 0 <= i < |ErrorEntries| :: StartsWith(ErrorEntries[i].1, "Error en ")
  {
    ErrorValuesLow();
    ErrorValuesHigh();
  }

  lemma WorstValuesLow()
    ensures forall i | 0 <= i < 5 :: EndsWith(WorstEntries[i].1, " peor caso")
  {
  }

  lemma WorstValuesHigh()
    ensures forall i | 5 <= i < 10 :: EndsWith(WorstEntries[i].1, " peor caso")
  {
  }

  lemma WorstValuesPattern()
    ensures forall i | 0 <= i < |WorstEntries| :: EndsWith(WorstEntries[i].1, " peor caso")
  {
    WorstValuesLow();
    WorstValuesHigh();
  }

  lemma BlockValuesDistinct()
    ensures Distinct(ValuesOf(MeanEntries))
    ensures Distinct(ValuesOf(ErrorEntries))
    ensures Distinct(ValuesOf(WorstEntries))
  {
  }

  lemma BlockValuesApart()
    ensures forall i, j | 0 <= i < 10 && 0 <= j < 10 :: MeanEntries[i].1 != ErrorEntries[j].1
    ensures forall i, j | 0 <= i < 10 && 0 <= j < 10 :: MeanEntries[i].1 != WorstEntries[j].1
    ensures forall i, j | 0 <= i < 10 && 0 <= j < 10 :: ErrorEntries[i].1 != WorstEntries[j].1
  {
  }

  // ---------------------------------------------------------------------------
  // The table

  /** FEATURE_TRANSLATIONS lists, block after block, the mean, the standard error
      and the worst value of the ten measurements, each block in the same order. */
  lemma TranslationKeysInOrder()
    ensures KeysOf(TranslationEntries) ==
      Apply(MeanKey, Measurements) + Apply(ErrorKey, Measurements) + Apply(WorstKey, Measurements)
  {
    MeanKeysInOrder();
    ErrorKeysInOrder();
    WorstKeysInOrder();
    KeysOfBlocks(MeanEntries, ErrorEntries, WorstEntries, Measurements, MeanKey, ErrorKey, WorstKey);
  }

  /** Three blocks whose keys name the same measurements in the same order list
      their keys block after block. */
  lemma KeysOfBlocks(a: Entries, b: Entries, c: Entries, ms: seq<string>, f: string -> string, g: string -> string, h: string -> string)
    requires |a| == |ms| && |b| == |ms| && |c| == |ms|
    requires forall i | 0 <= i < |ms| :: a[i].0 == f(ms[i])
    requires forall i | 0 <= i < |ms| :: b[i].0 == g(ms[i])
    requires forall i | 0 <= i < |ms| :: c[i].0 == h(ms[i])
    ensures KeysOf(a + b + c) == Apply(f, ms) + Apply(g, ms) + Apply(h, ms)
  {
    var ab := a + b;
    var all := ab + c;
    var fs, gs, hs := Apply(f, ms), Apply(g, ms), Apply(h, ms);
    forall k | 0 <= k < |all| ensures KeysOf(all)[k] == (fs + gs + hs)[k] {
      if k < |a| {
        assert all[k] == ab[k] == a[k];
      } else if k < |ab| {
        assert all[k] == ab[k] == b[k - |a|];
      } else {
        assert all[k] == c[k - |ab|];
      }
    }
  }

  /** No key is written twice: within a block the measurements differ, and across
      blocks a mean key starts with 'm', a worst key with 'w' and an error key
      with the initial of a measurement, which is neither. */
  lemma TranslationKeysDistinct()
    ensures Distinct(KeysOf(TranslationEntries))
  {
    TranslationKeysInOrder();
    MeasurementsDistinct();
    MeasurementInitials();
    KeyFunctionsInjective();
    var means, errors, worsts := Apply(MeanKey, Measurements), Apply(ErrorKey, Measurements), Apply(WorstKey, Measurements);
    ApplyDistinct(MeanKey, Measurements);
    ApplyDistinct(ErrorKey, Measurements);
    ApplyDistinct(WorstKey, Measurements);
    forall i, j | 0 <= i < |means| && 0 <= j < |errors| ensures means[i] != errors[j] {
      assert means[i][0] == 'm' && errors[j][0] == Measurements[j][0];
    }
    forall i, j | 0 <= i < |means| && 0 <= j < |worsts| ensures means[i] != worsts[j] {
      assert means[i][0] == 'm' && worsts[j][0] == 'w';
    }
    DistinctConcat(means, errors);
    forall i, j | 0 <= i < |means + errors| && 0 <= j < |worsts| ensures (means + errors)[i] != worsts[j] {
      assert worsts[j][0] == 'w';
      if i >= |means| {
        assert errors[i - |means|][0] == Measurements[i - |means|][0];
      }
    }
    DistinctConcat(means + errors, worsts);
  }

  /** The dictionary has exactly thirty keys. */
  lemma TranslationCount()
    ensures |FeatureTranslations| == 30
  {
    TranslationKeysDistinct();
    DictOfSize(TranslationEntries);
  }

  /** Its keys are the three statistics of the ten measurements, and nothing else. */
  lemma KeysAreThreeGroupsOfTen()
    ensures FeatureTranslations.Keys ==
      Image(Measurements, MeanKey) + Image(Measurements, ErrorKey) + Image(Measurements, WorstKey)
  {
    TranslationKeysInOrder();
    var means, errors, worsts := Apply(MeanKey, Measurements), Apply(ErrorKey, Measurements), Apply(WorstKey, Measurements);
    DictOfKeys(TranslationEntries);
    ElementsOfConcat(means, errors);
    ElementsOfConcat(means + errors, worsts);
    ElementsOfApply(MeanKey, Measurements);
    ElementsOfApply(ErrorKey, Measurements);
    ElementsOfApply(WorstKey, Measurements);
  }

  /** No two features share a display name, so a translated label names one feature. */
  lemma TranslationsInjective()
    ensures InjectiveMap(FeatureTranslations)
  {
    TranslationKeysDistinct();
    BlockValuesDistinct();
    BlockValuesApart();
    var mean, error, worst := ValuesOf(MeanEntries), ValuesOf(ErrorEntries), ValuesOf(WorstEntries);
    DistinctConcat(mean, error);
    DistinctConcat(mean + error, worst);
    assert ValuesOf(TranslationEntries) == mean + error + worst;
    DictOfInjective(TranslationEntries);
  }

  /** Each block's values follow one pattern: "<Medida> promedio", "Error en <medida>"
      and "<Medida> peor caso". */
  lemma TranslationPatterns(m: string)
    requires m in Measurements
    ensures MeanKey(m) in FeatureTranslations && EndsWith(FeatureTranslations[MeanKey(m)], " promedio")
    ensures ErrorKey(m) in FeatureTranslations && StartsWith(FeatureTranslations[ErrorKey(m)], "Error en ")
    ensures WorstKey(m) in FeatureTranslations && EndsWith(FeatureTranslations[WorstKey(m)], " peor caso")
  {
    var i :| 0 <= i < |Measurements| && Measurements[i] == m;
    MeanKeysInOrder();
    ErrorKeysInOrder();
    WorstKeysInOrder();
    TranslationKeysDistinct();
    BlockLookup(MeanEntries, ErrorEntries, WorstEntries, i);
    MeanValuesPattern();
    ErrorValuesPattern();
    WorstValuesPattern();
  }

  /** In a dictionary written as three blocks of equal length with no key twice,
      the i-th entry of each block is found under its key. */
  lemma BlockLookup(a: Entries, b: Entries, c: Entries, i: int)
    requires Distinct(KeysOf(a + b + c))
    requires |a| == |b| == |c| && 0 <= i < |a|
    ensures a[i].0 in DictOf(a + b + c) && DictOf(a + b + c)[a[i].0] == a[i].1
    ensures b[i].0 in DictOf(a + b + c) && DictOf(a + b + c)[b[i].0] == b[i].1
    ensures c[i].0 in DictOf(a + b + c) && DictOf(a + b + c)[c[i].0] == c[i].1
  {
    var ab := a + b;
    var all := ab + c;
    assert ab[i] == a[i] && ab[|a| + i] == b[i];
    assert all[i] == ab[i] && all[|a| + i] == ab[|a| + i] && all[|ab| + i] == c[i];
    DictOfLookup(all, i);
    DictOfLookup(all, |a| + i);
    DictOfLookup(all, |ab| + i);
  }
}

=== FILE: frontend.dfy ===
/** The pure helpers of the Streamlit dashboard (frontend/frontend.py): the
    service address, image addresses, display names of features, the
    three-column feature table and the verdict shown for a prediction. */
module Frontend {

  import opened Common
  import opened PyStr
  import FeatureNames
  import Api
  import ArrayApi

  /** Where the browser can always reach the images. */
  const LocalBase: string := "http://localhost:5000"

  // ---------------------------------------------------------------------------
  // Addresses

  /** `os.environ.get("API_URL", "http://localhost:5000").rstrip("/")`, with the
      environment variable as a parameter. */
  function ApiUrl(env: Option<string>): (url: string)
    ensures url == [] || url[|url| - 1] != '/'
  {
    RStrip(if env.Some? then env.value else LocalBase, '/')
  }

  /** The service address never ends in '/', and it is what was configured with
      exactly the trailing slashes removed. */
  lemma ApiUrlNormalised(env: Option<string>)
    ensures var given := if env.Some? then env.value else LocalBase;
      (ApiUrl(env) == [] || ApiUrl(env)[|ApiUrl(env)| - 1] != '/') &&
      StartsWith(given, ApiUrl(env)) &&
      forall k | |ApiUrl(env)| <= k < |given| :: given[k] == '/'
    ensures ApiUrl(None) == LocalBase
  {
  }

  /** Trailing slashes in the configuration make no difference. */
  lemma ApiUrlIgnoresTrailingSlashes(url: string, slashes: nat)
    ensures ApiUrl(Some(url + seq(slashes, _ => '/'))) == ApiUrl(Some(url))
    decreases slashes
  {
    if slashes > 0 {
      var longer := url + seq(slashes, _ => '/');
      var shorter := url + seq(slashes - 1, _ => '/');
      assert longer[..|longer| - 1] == shorter;
      ApiUrlIgnoresTrailingSlashes(url, slashes - 1);
    }
  }

  /** `viz_url(name)`: image names (any name mentioning "visualizations" or
      ending in ".png") are fetched from the local address, everything else from
      the configured service. */
  function VizUrl(apiUrl: string, name: string): (url: string)
  {
    var base := if Contains(name, "visualizations") || EndsWith(name, ".png") then LocalBase else apiUrl;
    base + "/visualizations/" + name
  }

  /** The address always ends in "/visualizations/" followed by the name, after
      either the local base or the service address, and the local base is chosen
      exactly for image names. */
  lemma VizUrlShape(apiUrl: string, name: string)
    ensures EndsWith(VizUrl(apiUrl, name), "/visualizations/" + name)
    ensures Contains(name, "visualizations") || EndsWith(name, ".png") ==>
      StartsWith(VizUrl(apiUrl, name), LocalBase + "/visualizations/")
    ensures !(Contains(name, "visualizations") || EndsWith(name, ".png")) ==>
      StartsWith(VizUrl(apiUrl, name), apiUrl + "/visualizations/")
  {
    var base := if Contains(name, "visualizations") || EndsWith(name, ".png") then LocalBase else apiUrl;
    assert VizUrl(apiUrl, name) == base + ("/visualizations/" + name);
    EndsWithAppended(base, "/visualizations/" + name);
    assert VizUrl(apiUrl, name) == (base + "/visualizations/") + name;
    StartsWithAppended(base + "/visualizations/", name);
  }

  /** `themed_viz(name)`: the themed image for the current mode. */
  function ThemedViz(apiUrl: string, name: string, darkMode: bool): (url: string)
    ensures EndsWith(url, if darkMode then "_dark.png" else "_light.png")
  {
    VizUrl(apiUrl, name + (if darkMode then "_dark.png" else "_light.png"))
  }

  /** A themed image name ends in ".png", so it always comes from the local
      address, whatever service address is configured. */
  lemma ThemedVizIsLocal(apiUrl: string, name: string, darkMode: bool)
    ensures ThemedViz(apiUrl, name, darkMode) ==
      LocalBase + "/visualizations/" + name + (if darkMode then "_dark.png" else "_light.png")
  {
    var suffix := if darkMode then "_dark.png" else "_light.png";
    if darkMode {
      assert suffix == "_dark" + ".png";
    } else {
      assert suffix == "_light" + ".png";
    }
    assert name + suffix == (name + suffix[..|suffix| - 4]) + ".png";
    EndsWithAppended(name + suffix[..|suffix| - 4], ".png");
    assert LocalBase + "/visualizations/" + (name + suffix) == LocalBase + "/visualizations/" + name + suffix;
  }

  // ---------------------------------------------------------------------------
  // Display names

  /** FEATURE_TRANSLATIONS as the dashboard sees it: the table when its module
      could be imported, and an empty map otherwise. */
  function Translations(imported: bool): (t: map<string, string>)
  {
    if imported then FeatureNames.FeatureTranslations else map[]
  }

  /** The name shown for a feature when it has no translation: every "mean " is
      removed, every '_' becomes a space, and the result is title-cased. */
  function Fallback(f: string): (name: string)
  {
    Title(Replace(Replace(f, "mean ", ""), "_", " "))
  }

  /** `feature_display_name(f)`. */
  function FeatureDisplayName(translations: map<string, string>, f: string): (name: string)
  {
    if f in translations then translations[f] else Fallback(f)
  }

  /** A translated feature shows its translation; an untranslated one the fallback. */
  lemma DisplayNameChoice(translations: map<string, string>, f: string)
    ensures f in translations ==> FeatureDisplayName(translations, f) == translations[f]
    ensures f !in translations ==> FeatureDisplayName(translations, f) == Fallback(f)
  {
  }

  /** With the table imported, the three statistics of a measurement show the
      Spanish names of their block. */
  lemma TranslatedNamesFollowBlocks(m: string)
    requires m in FeatureNames.Measurements
    ensures EndsWith(FeatureDisplayName(Translations(true), FeatureNames.MeanKey(m)), " promedio")
    ensures StartsWith(FeatureDisplayName(Translations(true), FeatureNames.ErrorKey(m)), "Error en ")
    ensures EndsWith(FeatureDisplayName(Translations(true), FeatureNames.WorstKey(m)), " peor caso")
  {
    FeatureNames.TranslationPatterns(m);
  }

  /** With the table imported, two canonical features never share a label. */
  lemma CanonicalLabelsDistinct(f1: string, f2: string)
    requires f1 in FeatureNames.FeatureTranslations && f2 in FeatureNames.FeatureTranslations && f1 != f2
    ensures FeatureDisplayName(Translations(true), f1) != FeatureDisplayName(Translations(true), f2)
  {
    FeatureNames.TranslationsInjective();
  }

  /** The fallback has no underscore left, and it is as long as the name with
      every "mean " removed. */
  lemma FallbackHasNoUnderscore(f: string)
    ensures |Fallback(f)| == |Replace(f, "mean ", "")|
    ensures forall k | 0 <= k < |Fallback(f)| :: Fallback(f)[k] != '_'
  {
    var spaced := Replace(Replace(f, "mean ", ""), "_", " ");
    ReplaceCharPointwise(Replace(f, "mean ", ""), '_', ' ');
    TitlePointwise(spaced, false);
    forall k | 0 <= k < |spaced| ensures Title(spaced)[k] != '_' {
      TitleCharKeepsOthers(spaced[k], if k == 0 then false else IsCased(spaced[k - 1]));
    }
  }

  /** "mean " is removed wherever it first occurs, not only at the front: the
      text before it is kept as it is, and the scan goes on after it. */
  lemma FallbackDropsFirstMean(f: string, k: nat)
    requires OccursAt(f, "mean ", k)
    requires forall j | 0 <= j < k :: !OccursAt(f, "mean ", j)
    ensures Replace(f, "mean ", "") == f[..k] + ReplaceFrom(f, "mean ", "", k + 5)
  {
    ReplaceFirst(f, "mean ", "", k);
    assert f[..k] + "" == f[..k];
  }

  /** A name without "mean " only has its underscores turned into spaces before
      title-casing. */
  lemma FallbackWithoutMean(f: string)
    requires !Contains(f, "mean ")
    ensures Fallback(f) == Title(Replace(f, "_", " "))
  {
    ReplaceAbsent(f, "mean ", "");
  }

  // ---------------------------------------------------------------------------
  // The feature table

  /** The three columns of the feature table, "Columna 1" to "Columna 3". */
  datatype Table = Table(col1: seq<string>, col2: seq<string>, col3: seq<string>)

  /** Every feature's display name, in order. */
  function DisplayNames(translations: map<string, string>, features: seq<string>): (names: seq<string>)
    ensures |names| == |features|
    ensures forall i | 0 <= i < |features| :: names[i] == FeatureDisplayName(translations, features[i])
  {
    if features == [] then []
    else DisplayNames(translations, features[..|features| - 1]) + [FeatureDisplayName(translations, features[|features| - 1])]
  }

  /** How many blanks make `n` a multiple of three. */
  function PadCount(n: nat): (k: nat)
    ensures k <= 2 && (n + k) % 3 == 0
  {
    if n % 3 == 0 then 0 else 3 - n % 3
  }

  function Blanks(k: nat): (b: seq<string>)
  {
    seq(k, _ => "")
  }

  /** `to_table_3x10(features)`: the display names are padded with blank cells to
      a multiple of three and cut into three equal columns, filled column by
      column. */
  method ToTable3x10(translations: map<string, string>, features: seq<string>) returns (table: Table)
    ensures table.col1 + table.col2 + table.col3 ==
      DisplayNames(translations, features) + Blanks(PadCount(|features|))
    ensures |table.col1| == |table.col2| == |table.col3| == (|features| + PadCount(|features|)) / 3
  {
    var names := DisplayNames(translations, features);
    var disp := names;
    while |disp| % 3 != 0
      invariant |names| <= |disp| <= |names| + PadCount(|names|)
      invariant disp == names + Blanks(|disp| - |names|)
      decreases |names| + PadCount(|names|) - |disp|
    {
      PadBound(|names|, |disp|);
      BlanksGrow(|disp| - |names|);
      disp := disp + [""];
    }
    PadBound(|names|, |disp|);
    var rows := |disp| / 3;
    table := Table(disp[0..rows], disp[rows..2 * rows], disp[2 * rows..3 * rows]);
    ThreeColumns(disp, rows);
  }

  /** Between `n` and `n + PadCount(n)`, only `n + PadCount(n)` is a multiple of three. */
  lemma PadBound(n: nat, m: nat)
    requires n <= m <= n + PadCount(n)
    ensures m % 3 == 0 <==> m == n + PadCount(n)
  {
  }

  lemma BlanksGrow(k: nat)
    ensures Blanks(k) + [""] == Blanks(k + 1)
  {
  }

  lemma ThreeColumns(s: seq<string>, rows: nat)
    requires |s| == 3 * rows
    ensures s[0..rows] + s[rows..2 * rows] + s[2 * rows..3 * rows] == s
  {
  }

  /** At most two blank cells are added, and only at the end. */
  lemma PaddingIsSmall(n: nat)
    ensures PadCount(n) <= 2
    ensures n % 3 == 0 <==> PadCount(n) == 0
  {
  }

  /** The thirty canonical features fill ten rows with no blank cell. */
  lemma ThirtyFeaturesTenRows()
    ensures PadCount(|FeatureNames.TranslationEntries|) == 0
    ensures (|FeatureNames.TranslationEntries| + PadCount(|FeatureNames.TranslationEntries|)) / 3 == 10
  {
  }

  // ---------------------------------------------------------------------------
  // The verdict

  datatype Verdict = Benign | Malignant

  /** Python's `x == 0` on a decoded JSON value: true for the number zero and for
      `false`, whose value as a number is zero. */
  predicate EqualsZero(x: Json)
  {
    x == Num(0.0) || x == Bool(false)
  }

  /** `pred = result.get("prediction", 0)`, then benign when `pred == 0`. */
  function VerdictOf(result: map<string, Json>): (v: Verdict)
  {
    var pred := if "prediction" in result then result["prediction"] else Num(0.0);
    if EqualsZero(pred) then Benign else Malignant
  }

  /** A successful response of the name-keyed service is shown as benign exactly
      when its class is 0; any response without "prediction" is shown as benign. */
  lemma VerdictOfApiClass(r: Api.PredictResponse)
    requires r.Prediction?
    ensures VerdictOf(Api.SuccessBody(r)) == Benign <==> r.prediction == 0
    ensures forall result: map<string, Json> | "prediction" !in result :: VerdictOf(result) == Benign
  {
  }

  /** The dashboard reads class 0 as benign, while the array-keyed service names
      class 0 "malignant" and class 1 "benign": the two tables disagree on both
      classes. */
  lemma VerdictContradictsClassTable(c: int)
    requires c == 0 || c == 1
    ensures (VerdictOf(map["prediction" := Num(c as real)]) == Benign) <==>
      (ArrayApi.ClassName(c) == "malignant")
  {
  }
}

=== FILE: packaging.dfy ===
/** The packaging script (package_project.py): it walks the project directory
    top-down, prunes excluded directories, skips excluded files and writes every
    other file into a zip archive under its path relative to the project
    directory. The directory is an abstract tree; an archive entry is named by
    its path, the list of directory names down to the file. */
module Packaging {

  import opened Common

  /** A directory entry: a file, or a directory with its entries in listing order. */
  datatype Entry = File(name: string) | Dir(name: string, children: seq<Entry>)

  type Path = seq<string>

  /** A directory still to be walked: its path and its entries. */
  type Pending = (Path, seq<Entry>)

  const DefaultZipName: string := "EvaluacionModular10.zip"

  /** `excluir`: caches, version control, editor settings, environments, and the
      archive being written. */
  function Excluded(zipName: string): (names: seq<string>)
  {
    ["__pycache__", ".git", ".github", ".venv", "venv", "mlops-env", ".env", ".vscode", zipName]
  }

  /** The directory rule: a directory whose name is in the list is pruned. */
  predicate Pruned(name: string, zipName: string)
  {
    name in Excluded(zipName)
  }

  /** The file rule: a file whose name is in the list, or is the archive's, is skipped. */
  predicate Skipped(name: string, zipName: string)
  {
    name in Excluded(zipName) || name == zipName
  }

  // ---------------------------------------------------------------------------
  // The selection, in walk order

  /** The archive entries a top-down walk of the directory at `prefix` writes:
      first the kept files of the directory itself, then, directory by directory,
      everything below each kept subdirectory. */
  function Walk(prefix: Path, entries: seq<Entry>, zipName: string): (paths: seq<Path>)
    decreases entries, 1
  {
    FilesOf(prefix, entries, zipName) + WalkDirs(prefix, entries, zipName)
  }

  /** The kept files of one directory, in listing order. */
  function FilesOf(prefix: Path, entries: seq<Entry>, zipName: string): (paths: seq<Path>)
    decreases entries
  {
    if entries == [] then []
    else
      (if entries[0].File? && !Skipped(entries[0].name, zipName) then [prefix + [entries[0].name]] else [])
      + FilesOf(prefix, entries[1..], zipName)
  }

  /** Everything below the kept subdirectories of one directory, in listing order. */
  function WalkDirs(prefix: Path, entries: seq<Entry>, zipName: string): (paths: seq<Path>)
    decreases entries, 0
  {
    if entries == [] then []
    else
      (if entries[0].Dir? && !Pruned(entries[0].name, zipName)
       then Walk(prefix + [entries[0].name], entries[0].children, zipName) else [])
      + WalkDirs(prefix, entries[1..], zipName)
  }

  /** `p` leads from the directory with `entries` to a file. */
  predicate FileAt(entries: seq<Entry>, p: Path)
    decreases entries
  {
    exists i | 0 <= i < |entries| ::
      |p| > 0 && entries[i].name == p[0] &&
      ((|p| == 1 && entries[i].File?) || (|p| > 1 && entries[i].Dir? && FileAt(entries[i].children, p[1..])))
  }

  /** No directory on the way is pruned and the file is not skipped. */
  predicate KeptPath(p: Path, zipName: string)
    requires |p| > 0
  {
    (forall k | 0 <= k < |p| - 1 :: !Pruned(p[k], zipName)) && !Skipped(p[|p| - 1], zipName)
  }

  // ---------------------------------------------------------------------------
  // The archive

  class ZipArchive {
    /** The entries written so far, in order. */
    var names: seq<Path>

    constructor ()
      ensures names == []
    {
      names := [];
    }

    /** `zipf.write(path, arcname)`: one more entry. */
    method Write(p: Path)
      modifies this
      ensures names == old(names) + [p]
    {
      names := names + [p];
    }
  }

  /** What the directories still on the stack will write, the top one first. */
  function PendingWalk(stack: seq<Pending>, zipName: string): (paths: seq<Path>)
  {
    if stack == [] then []
    else Walk(stack[|stack| - 1].0, stack[|stack| - 1].1, zipName) + PendingWalk(stack[..|stack| - 1], zipName)
  }

  /** The kept subdirectories of one directory, pushed so that the first is on top. */
  function Pushed(prefix: Path, entries: seq<Entry>, zipName: string): (pushed: seq<Pending>)
  {
    if entries == [] then []
    else
      Pushed(prefix, entries[1..], zipName) +
      (if entries[0].Dir? && !Pruned(entries[0].name, zipName)
       then [(prefix + [entries[0].name], entries[0].children)] else [])
  }

  /** `empaquetar(nombre_zip)` over the tree `root` of the project directory: a
      top-down walk with the pending directories on a stack, pruning excluded
      subdirectories and writing every file that is not skipped. */
  method Empaquetar(root: seq<Entry>, zipName: string) returns (archive: ZipArchive)
    ensures fresh(archive)
    ensures archive.names == Walk([], root, zipName)
  {
    archive := new ZipArchive();
    var stack: seq<Pending> := [([], root)];
    assert PendingWalk(stack, zipName) == Walk([], root, zipName) + PendingWalk([], zipName);
    while stack != []
      invariant fresh(archive)
      invariant archive.names + PendingWalk(stack, zipName) == Walk([], root, zipName)
      decreases StackSize(stack)
    {
      var (path, entries) := stack[|stack| - 1];
      var rest := stack[..|stack| - 1];
      WalkStep(archive.names, stack, path, entries, zipName);
      PushedSize(path, entries, zipName);
      StackSizeConcat(rest, Pushed(path, entries, zipName));
      WriteFiles(archive, path, entries, zipName);
      stack := rest + Pushed(path, entries, zipName);
    }
  }

  /** The body of `for file in files`: every file not skipped is written, in order. */
  method WriteFiles(archive: ZipArchive, path: Path, entries: seq<Entry>, zipName: string)
    modifies archive
    ensures archive.names == old(archive.names) + FilesOf(path, entries, zipName)
  {
    var i := 0;
    while i < |entries|
      invariant 0 <= i <= |entries|
      invariant archive.names + FilesOf(path, entries[i..], zipName) == old(archive.names) + FilesOf(path, entries, zipName)
    {
      var e := entries[i];
      assert entries[i..][1..] == entries[i + 1..];
      if e.Dir? || e.name in Excluded(zipName) || e.name == zipName {
        i := i + 1;
        continue;
      }
      archive.Write(path + [e.name]);
      i := i + 1;
    }
    assert entries[|entries|..] == [];
  }

  /** One step of the walk: writing the top directory's files and pushing its kept
      subdirectories leaves the whole output unchanged. */
  lemma WalkStep(written: seq<Path>, stack: seq<Pending>, path: Path, entries: seq<Entry>, zipName: string)
    requires stack != [] && stack[|stack| - 1] == (path, entries)
    ensures written + PendingWalk(stack, zipName) ==
      (written + FilesOf(path, entries, zipName)) + PendingWalk(stack[..|stack| - 1] + Pushed(path, entries, zipName), zipName)
  {
    var rest := stack[..|stack| - 1];
    PendingPushed(rest, path, entries, zipName);
    Regroup(written, FilesOf(path, entries, zipName), WalkDirs(path, entries, zipName), PendingWalk(rest, zipName));
  }

  lemma Regroup<T>(w: seq<T>, f: seq<T>, d: seq<T>, p: seq<T>)
    ensures w + ((f + d) + p) == (w + f) + (d + p)
  {
  }

  /** Pushing the kept subdirectories puts their walks, in listing order, in
      front of what was pending. */
  lemma {:induction false} PendingPushed(stack: seq<Pending>, prefix: Path, entries: seq<Entry>, zipName: string)
    ensures PendingWalk(stack + Pushed(prefix, entries, zipName), zipName) ==
      WalkDirs(prefix, entries, zipName) + PendingWalk(stack, zipName)
  {
    if entries != [] {
      var rest := Pushed(prefix, entries[1..], zipName);
      PendingPushed(stack, prefix, entries[1..], zipName);
      if entries[0].Dir? && !Pruned(entries[0].name, zipName) {
        var top := (prefix + [entries[0].name], entries[0].children);
        var s := stack + rest + [top];
        assert Pushed(prefix, entries, zipName) == rest + [top];
        assert stack + Pushed(prefix, entries, zipName) == s;
        assert s[..|s| - 1] == stack + rest && s[|s| - 1] == top;
        assert PendingWalk(s, zipName) == Walk(top.0, top.1, zipName) + PendingWalk(stack + rest, zipName);
      } else {
        assert Pushed(prefix, entries, zipName) == rest + [];
        assert rest + [] == rest;
      }
    } else {
      assert stack + [] == stack;
    }
  }

  // ---------------------------------------------------------------------------
  // What the archive holds

  /** The second test of the file rule adds nothing: the archive's name is in the
      list already, so files and directories are judged by the same names. */
  lemma SkipRuleIsPruneRule(name: string, zipName: string)
    ensures Skipped(name, zipName) <==> Pruned(name, zipName)
    ensures Pruned(zipName, zipName)
  {
    assert Excluded(zipName)[8] == zipName;
  }

  lemma {:induction false} FilesOfIff(prefix: Path, entries: seq<Entry>, zipName: string, p: Path)
    ensures p in FilesOf(prefix, entries, zipName) <==>
      exists i | 0 <= i < |entries| :: entries[i].File? && !Skipped(entries[i].name, zipName) && p == prefix + [entries[i].name]
  {
    if entries != [] {
      FilesOfIff(prefix, entries[1..], zipName, p);
      if p in FilesOf(prefix, entries[1..], zipName) {
        var i :| 0 <= i < |entries[1..]| && entries[1..][i].File? && !Skipped(entries[1..][i].name, zipName) && p == prefix + [entries[1..][i].name];
        assert entries[i + 1] == entries[1..][i];
      }
      if exists i | 0 <= i < |entries| :: entries[i].File? && !Skipped(entries[i].name, zipName) && p == prefix + [entries[i].name] {
        var i :| 0 <= i < |entries| && entries[i].File? && !Skipped(entries[i].name, zipName) && p == prefix + [entries[i].name];
        if i > 0 {
          assert entries[1..][i - 1] == entries[i];
        }
      }
    }
  }

  lemma {:induction false} WalkDirsIff(prefix: Path, entries: seq<Entry>, zipName: string, p: Path)
    ensures p in WalkDirs(prefix, entries, zipName) <==>
      exists i | 0 <= i < |entries| :: entries[i].Dir? && !Pruned(entries[i].name, zipName) &&
        p in Walk(prefix + [entries[i].name], entries[i].children, zipName)
  {
    if entries != [] {
      WalkDirsIff(prefix, entries[1..], zipName, p);
      if p in WalkDirs(prefix, entries[1..], zipName) {
        var i :| 0 <= i < |entries[1..]| && entries[1..][i].Dir? && !Pruned(entries[1..][i].name, zipName) &&
          p in Walk(prefix + [entries[1..][i].name], entries[1..][i].children, zipName);
        assert entries[i + 1] == entries[1..][i];
      }
      if exists i | 0 <= i < |entries| :: entries[i].Dir? && !Pruned(entries[i].name, zipName) &&
          p in Walk(prefix + [entries[i].name], entries[i].children, zipName) {
        var i :| 0 <= i < |entries| && entries[i].Dir? && !Pruned(entries[i].name, zipName) &&
          p in Walk(prefix + [entries[i].name], entries[i].children, zipName);
        if i > 0 {
          assert entries[1..][i - 1] == entries[i];
        }
      }
    }
  }

  lemma KeptPathCons(q: Path, zipName: string)
    requires |q| > 1
    ensures KeptPath(q, zipName) <==> !Pruned(q[0], zipName) && KeptPath(q[1..], zipName)
  {
    if !Pruned(q[0], zipName) && KeptPath(q[1..], zipName) {
      forall k | 0 <= k < |q| - 1 ensures !Pruned(q[k], zipName) {
        if k > 0 {
          assert q[k] == q[1..][k - 1];
        }
      }
    }
  }

  /** `p` continues `prefix` to a file of the directory with `entries`, through no
      pruned directory, and the file is not skipped. */
  predicate SelectedBelow(prefix: Path, entries: seq<Entry>, zipName: string, p: Path)
  {
    |p| > |prefix| && p[..|prefix|] == prefix && FileAt(entries, p[|prefix|..]) && KeptPath(p[|prefix|..], zipName)
  }

  /** The walk below `prefix` writes exactly the paths that continue `prefix` to a
      file of the tree with no pruned directory on the way and a name that is not
      skipped. */
  lemma WalkIff(prefix: Path, entries: seq<Entry>, zipName: string, p: Path)
    ensures p in Walk(prefix, entries, zipName) <==> SelectedBelow(prefix, entries, zipName, p)
  {
    if p in Walk(prefix, entries, zipName) {
      WalkWritesOnlySelected(prefix, entries, zipName, p);
    }
    if SelectedBelow(prefix, entries, zipName, p) {
      WalkWritesEverySelected(prefix, entries, zipName, p);
    }
  }

  lemma {:induction false} WalkWritesOnlySelected(prefix: Path, entries: seq<Entry>, zipName: string, p: Path)
    requires p in Walk(prefix, entries, zipName)
    ensures SelectedBelow(prefix, entries, zipName, p)
    decreases entries
  {
    FilesOfIff(prefix, entries, zipName, p);
    WalkDirsIff(prefix, entries, zipName, p);
    if p in FilesOf(prefix, entries, zipName) {
      var i :| 0 <= i < |entries| && entries[i].File? && !Skipped(entries[i].name, zipName) && p == prefix + [entries[i].name];
      var q := p[|prefix|..];
      assert p[..|prefix|] == prefix && q == [entries[i].name];
      assert FileAt(entries, q) by {
        assert entries[i].name == q[0] && |q| == 1 && entries[i].File?;
      }
    } else {
      var i :| 0 <= i < |entries| && entries[i].Dir? && !Pruned(entries[i].name, zipName) &&
        p in Walk(prefix + [entries[i].name], entries[i].children, zipName);
      var inner := prefix + [entries[i].name];
      WalkWritesOnlySelected(inner, entries[i].children, zipName, p);
      var q := p[|prefix|..];
      assert p[..|prefix|] == inner[..|prefix|] == prefix;
      assert q[0] == p[..|inner|][|prefix|] == entries[i].name;
      assert q[1..] == p[|inner|..];
      KeptPathCons(q, zipName);
      assert FileAt(entries, q) by {
        assert entries[i].name == q[0] && |q| > 1 && entries[i].Dir? && FileAt(entries[i].children, q[1..]);
      }
    }
  }

  lemma {:induction false} WalkWritesEverySelected(prefix: Path, entries: seq<Entry>, zipName: string, p: Path)
    requires SelectedBelow(prefix, entries, zipName, p)
    ensures p in Walk(prefix, entries, zipName)
    decreases entries
  {
    var q := p[|prefix|..];
    var i :| 0 <= i < |entries| && |q| > 0 && entries[i].name == q[0] &&
      ((|q| == 1 && entries[i].File?) || (|q| > 1 && entries[i].Dir? && FileAt(entries[i].children, q[1..])));
    assert p == prefix + q;
    if |q| == 1 {
      assert p == prefix + [entries[i].name];
      FilesOfIff(prefix, entries, zipName, p);
    } else {
      var inner := prefix + [entries[i].name];
      KeptPathCons(q, zipName);
      assert p[..|inner|] == inner && p[|inner|..] == q[1..];
      WalkWritesEverySelected(inner, entries[i].children, zipName, p);
      WalkDirsIff(prefix, entries, zipName, p);
    }
  }

  /** The archive holds exactly the files of the tree that are reached through no
      pruned directory and are not skipped themselves. */
  lemma ArchiveHoldsKeptFiles(root: seq<Entry>, zipName: string, p: Path)
    ensures p in Walk([], root, zipName) <==> FileAt(root, p) && |p| > 0 && KeptPath(p, zipName)
  {
    WalkIff([], root, zipName, p);
    assert p[0..] == p;
  }

  /** No archive entry passes through or names an excluded entry; in particular,
      for an archive name without a directory part (the archive is created in the
      walked directory under that name), the archive never goes into itself. */
  lemma NothingExcludedIsWritten(root: seq<Entry>, zipName: string, p: Path, k: int)
    requires p in Walk([], root, zipName) && 0 <= k < |p|
    ensures p[k] !in Excluded(zipName) && p[k] != zipName
  {
    ArchiveHoldsKeptFiles(root, zipName, p);
    SkipRuleIsPruneRule(p[k], zipName);
  }

  /** A tree as a file system lists it: sibling names differ, at every level. */
  predicate WellFormed(entries: seq<Entry>)
    decreases entries
  {
    (forall i, j | 0 <= i < j < |entries| :: entries[i].name != entries[j].name) &&
    (forall i | 0 <= i < |entries| :: entries[i].Dir? ==> WellFormed(entries[i].children))
  }

  /** Every path the walk below `prefix` writes continues `prefix` by the name of
      one of its entries. */
  lemma WalkStartsWithEntry(prefix: Path, entries: seq<Entry>, zipName: string, p: Path)
    requires p in Walk(prefix, entries, zipName)
    ensures |p| > |prefix| && p[..|prefix|] == prefix
    ensures exists i | 0 <= i < |entries| :: entries[i].name == p[|prefix|]
  {
    WalkIff(prefix, entries, zipName, p);
    assert p[|prefix|..][0] == p[|prefix|];
  }

  lemma {:induction false} FilesOfDistinct(prefix: Path, entries: seq<Entry>, zipName: string)
    requires forall i, j | 0 <= i < j < |entries| :: entries[i].name != entries[j].name
    ensures Distinct(FilesOf(prefix, entries, zipName))
    ensures forall p <- FilesOf(prefix, entries, zipName) :: |p| == |prefix| + 1
  {
    if entries != [] {
      var rest := FilesOf(prefix, entries[1..], zipName);
      FilesOfDistinct(prefix, entries[1..], zipName);
      var head: seq<Path> := if entries[0].File? && !Skipped(entries[0].name, zipName) then [prefix + [entries[0].name]] else [];
      forall a, b | 0 <= a < |head| && 0 <= b < |rest| ensures head[a] != rest[b] {
        FilesOfIff(prefix, entries[1..], zipName, rest[b]);
        var j :| 0 <= j < |entries[1..]| && entries[1..][j].File? && !Skipped(entries[1..][j].name, zipName) && rest[b] == prefix + [entries[1..][j].name];
        assert entries[1..][j] == entries[j + 1];
        assert head[a][|prefix|] == entries[0].name;
        assert rest[b][|prefix|] == entries[j + 1].name;
      }
      DistinctConcat(head, rest);
    }
  }

  /** On a well-formed tree no path is written twice. */
  lemma {:induction false} WalkDistinct(prefix: Path, entries: seq<Entry>, zipName: string)
    requires WellFormed(entries)
    ensures Distinct(Walk(prefix, entries, zipName))
    decreases entries, 1
  {
    var files := FilesOf(prefix, entries, zipName);
    var dirs := WalkDirs(prefix, entries, zipName);
    FilesOfDistinct(prefix, entries, zipName);
    WalkDirsDistinct(prefix, entries, zipName);
    forall a, b | 0 <= a < |files| && 0 <= b < |dirs| ensures files[a] != dirs[b] {
      assert files[a] in files;
      WalkDirsIff(prefix, entries, zipName, dirs[b]);
      var i :| 0 <= i < |entries| && entries[i].Dir? && !Pruned(entries[i].name, zipName) &&
        dirs[b] in Walk(prefix + [entries[i].name], entries[i].children, zipName);
      WalkStartsWithEntry(prefix + [entries[i].name], entries[i].children, zipName, dirs[b]);
    }
    DistinctConcat(files, dirs);
  }

  lemma {:induction false} WalkDirsDistinct(prefix: Path, entries: seq<Entry>, zipName: string)
    requires WellFormed(entries)
    ensures Distinct(WalkDirs(prefix, entries, zipName))
    decreases entries, 0
  {
    if entries != [] {
      var e := entries[0];
      var rest := WalkDirs(prefix, entries[1..], zipName);
      assert WellFormed(entries[1..]) by {
        forall i | 0 <= i < |entries[1..]| ensures entries[1..][i] == entries[i + 1] { }
      }
      WalkDirsDistinct(prefix, entries[1..], zipName);
      if e.Dir? && !Pruned(e.name, zipName) {
        var head := Walk(prefix + [e.name], e.children, zipName);
        WalkDistinct(prefix + [e.name], e.children, zipName);
        forall a, b | 0 <= a < |head| && 0 <= b < |rest| ensures head[a] != rest[b] {
          WalkStartsWithEntry(prefix + [e.name], e.children, zipName, head[a]);
          assert head[a][|prefix|] == head[a][..|prefix| + 1][|prefix|] == e.name;
          WalkDirsIff(prefix, entries[1..], zipName, rest[b]);
          var j :| 0 <= j < |entries[1..]| && entries[1..][j].Dir? && !Pruned(entries[1..][j].name, zipName) &&
            rest[b] in Walk(prefix + [entries[1..][j].name], entries[1..][j].children, zipName);
          var n := entries[1..][j].name;
          assert n == entries[j + 1].name;
          WalkStartsWithEntry(prefix + [n], entries[1..][j].children, zipName, rest[b]);
          assert rest[b][|prefix|] == rest[b][..|prefix| + 1][|prefix|] == n;
        }
        DistinctConcat(head, rest);
      } else {
        assert WalkDirs(prefix, entries, zipName) == [] + rest;
      }
    }
  }

  /** An excluded entry adds nothing to its directory's output, whatever it holds. */
  lemma ExcludedEntryAddsNothing(prefix: Path, e: Entry, rest: seq<Entry>, zipName: string)
    requires if e.File? then Skipped(e.name, zipName) else Pruned(e.name, zipName)
    ensures Walk(prefix, [e] + rest, zipName) == Walk(prefix, rest, zipName)
  {
    assert ([e] + rest)[1..] == rest;
  }

  /** With the default name, a directory called like the archive is pruned too. */
  lemma DefaultArchiveDirPruned(prefix: Path, children: seq<Entry>, rest: seq<Entry>)
    ensures Walk(prefix, [Dir(DefaultZipName, children)] + rest, DefaultZipName) == Walk(prefix, rest, DefaultZipName)
  {
    SkipRuleIsPruneRule(DefaultZipName, DefaultZipName);
    ExcludedEntryAddsNothing(prefix, Dir(DefaultZipName, children), rest, DefaultZipName);
  }

  /** A kept file is written before everything its directory holds after it. */
  lemma KeptFileWrittenFirst(prefix: Path, name: string, rest: seq<Entry>, zipName: string)
    requires !Skipped(name, zipName)
    ensures Walk(prefix, [File(name)] + rest, zipName) == [prefix + [name]] + Walk(prefix, rest, zipName)
  {
    assert ([File(name)] + rest)[1..] == rest;
  }

  /** Only whole names are matched: "venv2", "my.git" and ".gitignore" go in,
      ".env" stays out. */
  lemma WholeNamesOnly()
    ensures Walk([], [File("venv2"), File(".env"), File("my.git"), File(".gitignore")], DefaultZipName) ==
      [["venv2"], ["my.git"], [".gitignore"]]
  {
    var z := DefaultZipName;
    WholeNameFacts();
    var t3: seq<Entry> := [File(".gitignore")];
    var t2 := [File("my.git")] + t3;
    var t1 := [File(".env")] + t2;
    var root := [File("venv2")] + t1;
    assert Walk([], [], z) == [];
    KeptFileWrittenFirst([], ".gitignore", [], z);
    Singleton(File(".gitignore"));
    KeptFileWrittenFirst([], "my.git", t3, z);
    ExcludedEntryAddsNothing([], File(".env"), t2, z);
    KeptFileWrittenFirst([], "venv2", t1, z);
    Unprefixed(["venv2"]);
    Unprefixed(["my.git"]);
    Unprefixed([".gitignore"]);
    Listed(["venv2"], ["my.git"], [".gitignore"]);
  }

  lemma Singleton<T>(x: T)
    ensures [x] + [] == [x]
  {
  }

  lemma Unprefixed<T>(x: seq<T>)
    ensures [] + x == x
  {
  }

  lemma Listed<T>(a: T, b: T, c: T)
    ensures [a] + ([b] + ([c] + [])) == [a, b, c]
  {
  }

  lemma WholeNameFacts()
    ensures !Skipped("venv2", DefaultZipName) && !Skipped("my.git", DefaultZipName)
    ensures !Skipped(".gitignore", DefaultZipName) && Skipped(".env", DefaultZipName)
  {
  }

  // ---------------------------------------------------------------------------
  // Termination measure

  function Size(entries: seq<Entry>): (n: nat)
    decreases entries
  {
    if entries == [] then 0
    else
      (match entries[0] case File(_) => 1 case Dir(_, ch) => 1 + Size(ch))
      + Size(entries[1..])
  }

  function StackSize(stack: seq<Pending>): (n: nat)
  {
    if stack == [] then 0 else StackSize(stack[..|stack| - 1]) + 1 + Size(stack[|stack| - 1].1)
  }

  lemma {:induction false} StackSizeConcat(a: seq<Pending>, b: seq<Pending>)
    ensures StackSize(a + b) == StackSize(a) + StackSize(b)
    decreases |b|
  {
    if b == [] {
      assert a + b == a;
    } else {
      assert (a + b)[..|a + b| - 1] == a + b[..|b| - 1];
      assert (a + b)[|a + b| - 1] == b[|b| - 1];
      StackSizeConcat(a, b[..|b| - 1]);
    }
  }

  lemma {:induction false} PushedSize(prefix: Path, entries: seq<Entry>, zipName: string)
    ensures StackSize(Pushed(prefix, entries, zipName)) <= Size(entries)
  {
    if entries != [] {
      var rest := Pushed(prefix, entries[1..], zipName);
      PushedSize(prefix, entries[1..], zipName);
      if entries[0].Dir? && !Pruned(entries[0].name, zipName) {
        var top := (prefix + [entries[0].name], entries[0].children);
        StackSizeConcat(rest, [top]);
        assert [top][..0] == [];
      } else {
        assert rest + [] == rest;
      }
    }
  }
}

=== FILE: py_str.dfy ===
/** The Python `str` operations the dashboard relies on, on strings as sequences of
    characters: `startswith`, `endswith`, the `in` substring test, `replace`,
    `title` and `rstrip`. */
module PyStr {

  predicate StartsWith(s: string, prefix: string)
  {
    |prefix| <= |s| && s[..|prefix|] == prefix
  }

  predicate EndsWith(s: string, suffix: string)
  {
    |suffix| <= |s| && s[|s| - |suffix|..] == suffix
  }

  /** `sub` occurs in `s` starting at index `i`. */
  predicate OccursAt(s: string, sub: string, i: int)
  {
    0 <= i && i + |sub| <= |s| && s[i..i + |sub|] == sub
  }

  /** Python's `sub in s`. */
  predicate Contains(s: string, sub: string)
  {
    exists i | 0 <= i <= |s| - |sub| :: OccursAt(s, sub, i)
  }

  lemma EndsWithAppended(p: string, suffix: string)
    ensures EndsWith(p + suffix, suffix)
  {
    assert (p + suffix)[|p|..] == suffix;
  }

  lemma StartsWithAppended(prefix: string, q: string)
    ensures StartsWith(prefix + q, prefix)
  {
    assert (prefix + q)[..|prefix|] == prefix;
  }

  /** Python's `s.replace(pat, repl)`: every occurrence of `pat`, scanning left to
      right without overlaps, becomes `repl`. An empty `pat` matches before every
      character and at the end. */
  function Replace(s: string, pat: string, repl: string): (r: string)
  {
    if pat == [] then InsertEverywhere(s, repl) else ReplaceFrom(s, pat, repl, 0)
  }

  /** The scan of `replace` from index `i` on. */
  function ReplaceFrom(s: string, pat: string, repl: string, i: nat): (r: string)
    requires pat != [] && i <= |s|
    decreases |s| - i
  {
    if |s| - i < |pat| then s[i..]
    else if OccursAt(s, pat, i) then repl + ReplaceFrom(s, pat, repl, i + |pat|)
    else [s[i]] + ReplaceFrom(s, pat, repl, i + 1)
  }

  function InsertEverywhere(s: string, repl: string): (r: string)
    ensures |r| == |s| + (|s| + 1) * |repl|
  {
    if s == [] then repl else repl + [s[0]] + InsertEverywhere(s[1..], repl)
  }

  /** From index `i` on, with no occurrence of `pat` ahead, the scan copies the rest. */
  lemma {:induction false} ReplaceFromAbsent(s: string, pat: string, repl: string, i: nat)
    requires pat != [] && i <= |s|
    requires forall j | i <= j <= |s| - |pat| :: !OccursAt(s, pat, j)
    ensures ReplaceFrom(s, pat, repl, i) == s[i..]
    decreases |s| - i
  {
    if |s| - i >= |pat| {
      ReplaceFromAbsent(s, pat, repl, i + 1);
      assert [s[i]] + s[i + 1..] == s[i..];
    }
  }

  /** With no occurrence of `pat`, `replace` returns the string unchanged. */
  lemma ReplaceAbsent(s: string, pat: string, repl: string)
    requires pat != [] && !Contains(s, pat)
    ensures Replace(s, pat, repl) == s
  {
    ReplaceFromAbsent(s, pat, repl, 0);
  }

  /** Up to the next occurrence of `pat` at `k`, the scan copies; there it writes
      `repl` and resumes after the occurrence. */
  lemma {:induction false} ReplaceFromNext(s: string, pat: string, repl: string, i: nat, k: int)
    requires pat != [] && i <= k && OccursAt(s, pat, k)
    requires forall j | i <= j < k :: !OccursAt(s, pat, j)
    ensures ReplaceFrom(s, pat, repl, i) == s[i..k] + repl + ReplaceFrom(s, pat, repl, k + |pat|)
    decreases k - i
  {
    if i < k {
      ReplaceFromNext(s, pat, repl, i + 1, k);
      assert [s[i]] + s[i + 1..k] == s[i..k];
    }
  }

  /** The first occurrence of `pat` is replaced, and the scan resumes after it. */
  lemma ReplaceFirst(s: string, pat: string, repl: string, k: int)
    requires pat != [] && OccursAt(s, pat, k)
    requires forall j | 0 <= j < k :: !OccursAt(s, pat, j)
    ensures Replace(s, pat, repl) == s[..k] + repl + ReplaceFrom(s, pat, repl, k + |pat|)
  {
    ReplaceFromNext(s, pat, repl, 0, k);
  }

  /** Replacing one character by one character maps the string position by
      position. */
  lemma {:induction false} ReplaceCharFrom(s: string, a: char, b: char, i: nat)
    requires i <= |s|
    ensures |ReplaceFrom(s, [a], [b], i)| == |s| - i
    ensures forall k | i <= k < |s| :: ReplaceFrom(s, [a], [b], i)[k - i] == if s[k] == a then b else s[k]
    decreases |s| - i
  {
    if i < |s| {
      var rest := ReplaceFrom(s, [a], [b], i + 1);
      ReplaceCharFrom(s, a, b, i + 1);
      assert OccursAt(s, [a], i) <==> s[i] == a by {
        assert s[i..i + 1] == [s[i]];
      }
      var d := if s[i] == a then b else s[i];
      assert ReplaceFrom(s, [a], [b], i) == [d] + rest;
      forall k | i < k < |s| ensures ([d] + rest)[k - i] == if s[k] == a then b else s[k] {
        assert ([d] + rest)[k - i] == rest[k - (i + 1)];
      }
    }
  }

  lemma ReplaceCharPointwise(s: string, a: char, b: char)
    ensures |Replace(s, [a], [b])| == |s|
    ensures forall k | 0 <= k < |s| :: Replace(s, [a], [b])[k] == if s[k] == a then b else s[k]
  {
    ReplaceCharFrom(s, a, b, 0);
  }

  predicate IsUpper(c: char) { 'A' <= c <= 'Z' }
  predicate IsLower(c: char) { 'a' <= c <= 'z' }
  predicate IsCased(c: char) { IsUpper(c) || IsLower(c) }

  function ToUpper(c: char): (u: char)
  {
    if IsLower(c) then (c as int - 32) as char else c
  }

  function ToLower(c: char): (l: char)
  {
    if IsUpper(c) then (c as int + 32) as char else c
  }

  /** Python's `s.title()` on ASCII letters: a letter that follows a letter is
      lower-cased, any other letter upper-cased; other characters are kept. */
  function Title(s: string): (r: string)
    ensures |r| == |s|
  {
    TitleFrom(s, false)
  }

  /** A letter after a letter is lower-cased, any other letter upper-cased. */
  function TitleChar(c: char, afterCased: bool): char
  {
    if !IsCased(c) then c else if afterCased then ToLower(c) else ToUpper(c)
  }

  /** Title-casing changes letters into letters only. */
  lemma TitleCharKeepsOthers(c: char, afterCased: bool)
    ensures IsCased(c) <==> IsCased(TitleChar(c, afterCased))
    ensures !IsCased(c) ==> TitleChar(c, afterCased) == c
  {
  }

  /** `title` resumed in the middle of a string; `afterCased` says whether the
      character before `s` was a letter. */
  function TitleFrom(s: string, afterCased: bool): (r: string)
    ensures |r| == |s|
  {
    if s == [] then []
    else
      [TitleChar(s[0], afterCased)] + TitleFrom(s[1..], IsCased(s[0]))
  }

  /** Character `k` of the title-cased string depends only on characters `k-1`
      and `k` of the original: it starts a word exactly when the one before is not
      a letter. */
  lemma {:induction false} TitlePointwise(s: string, afterCased: bool)
    ensures |TitleFrom(s, afterCased)| == |s|
    ensures forall k | 0 <= k < |s| ::
      TitleFrom(s, afterCased)[k] == TitleChar(s[k], if k == 0 then afterCased else IsCased(s[k - 1]))
  {
    if s != [] {
      var t := s[1..];
      TitlePointwise(t, IsCased(s[0]));
      forall k | 1 <= k < |s| ensures TitleFrom(s, afterCased)[k] == TitleFrom(t, IsCased(s[0]))[k - 1] {
        assert t[k - 1] == s[k];
        if k > 1 {
          assert t[k - 2] == s[k - 1];
        }
      }
    }
  }

  /** Python's `s.rstrip(c)` for a single character `c`: all trailing copies of
      `c` are removed. */
  function RStrip(s: string, c: char): (r: string)
    ensures |r| <= |s| && r == s[..|r|]
    ensures r == [] || r[|r| - 1] != c
    ensures forall k | |r| <= k < |s| :: s[k] == c
  {
    if s != [] && s[|s| - 1] == c then RStrip(s[..|s| - 1], c) else s
  }

  /** Stripping twice strips nothing more. */
  lemma RStripIdempotent(s: string, c: char)
    ensures RStrip(RStrip(s, c), c) == RStrip(s, c)
  {
  }
}
